=== FILE: README.md ===
# Serverless Safeguards policy engine, modelled in Dafny

This project models the core of the Serverless Safeguards plugin:

- **`runPolicies`** (`safeguards/index.js`). It reads the `custom.safeguards` entries of a service and normalises each into a policy configuration. It loads each policy from the built-in `./policies` directory or from a local `path`, and decodes the `.json`/`.yml`/`.yaml` files of the `.serverless` artifacts directory. It runs every policy with an `approve`/`fail` handle when the policy applies to the current stage. Finally it counts passed, warned, errored and skipped policies, writes the details block, and throws `Deployment blocked by Serverless Safeguards` when a policy that failed without approving is not at level `warning`.
- **The `safeguards export` command** (`index.js` `export()`). It turns the policies attached to dashboard deployment profiles into `custom.safeguards` entries, exported under the stage that each profile serves.

Modules:

- `JsValues`, `JsObjects`: the JavaScript semantics the code leans on:
  - truthiness and `||`;
  - `===` with object identity;
  - `Array.prototype.includes`;
  - template-literal stringification;
  - object spread;
  - the `Object.keys` enumeration order (array-index keys ascending, then the rest in insertion order).
- `PolicyConfig`: entry normalisation, stage applicability, module paths and loading.
- `Capability`: one policy run as a sequence of `approve`/`fail` calls, folded into the result record and its progress lines.
- `Aggregation`: the four counts, the marked list, the block decision and the details block.
- `Artifacts`: artifact selection and the compiled-artifact map.
- `Engine`: the whole of `runPolicies` as a verdict (nothing configured, allowed, blocked or aborted), with its log lines and stdout output.
- `Export`: the export command's transformation.
- `Consistency`: what an exported entry becomes once the engine reads it back.
- `Scenarios`: whole runs on the configurations of the repository's own test suite.

The following are parameters of the model rather than logic:

- what each policy body does (the sequence of calls it makes, given its configuration);
- which module paths `require` can resolve;
- whether each artifact decodes;
- what `path.relative(__dirname, path.resolve(basePath, p))` returns;
- the answers of the two platform requests of the export command.

Behaviour of the code that a reader may not expect:

- The warning count takes every level other than `'error'`, but only `'warning'` keeps a failure from blocking. A level such as `'warn'` is therefore counted as a warning and still blocks.
- `approve` writes a `passed` line every time it is called.
- A missing `title` throws instead of getting a default title (see Findings).
- The "Finished inconclusively" detail text can never be produced.
- The exported document lists the plugin as `@serverless/safeguards-plugin;`, with a trailing semicolon.
- A local `path` that resolves to the engine's own directory becomes `./`, so the module path is `.//<safeguard>`.
- The current stage is whatever value the `stage` option holds, `undefined` included; a non-empty string stage never applies to an undefined current stage, and an array stage applies to it only when it contains `undefined`.

## Model

| member | source | states |
|---|---|---|
| `JsValues.Or` | safeguards/index.js:25 | `a \|\| b` is `a` when `a` is truthy and `b` otherwise |
| `PolicyConfig.LocalPolicyPath` | safeguards/index.js:32-36 | the policy path always starts with `.`; a path already starting with `.` is kept as is, any other gets `./` in front of it, unchanged |
| `PolicyConfig.Normalise` | safeguards/index.js:21-40 | an entry normalises iff it has a truthy title and its `path` is a string when truthy. A falsy title throws `ReferenceError` on the unbound `safeguardName`. Name, config, title, description and stage are copied verbatim; the level defaults to `'error'`; a policy path is set iff `path` is truthy, and it is then the local form of the relativised path |
| `PolicyConfig.NormaliseAll` | safeguards/index.js:21-40 | a falsy list gives no configurations; a non-list throws `TypeError`. A list normalises iff every entry does, one configuration per entry in order; otherwise the error is that of the first failing entry, all entries before it normalising |
| `PolicyConfig.StageApplies` | safeguards/index.js:115-123 | the current stage is any value, `undefined` included. A falsy stage applies; a non-empty string applies iff it is strictly equal to the current stage; an array applies iff it includes the current stage (so an empty array never applies, and for a primitive current stage it is membership); any other truthy value applies |
| `PolicyConfig.ModulePath` | safeguards/index.js:10-11 | the module path is `./policies/<safeguard>` when no local path (or an empty one) is configured, and `<local path>/<safeguard>` otherwise; it starts with `.` when the local path does |
| `PolicyConfig.EngineDirectoryPath` | safeguards/index.js:31-36 | every titled entry whose local `path` is a non-empty string with an empty relative form normalises, with policy path `./` and module path `.//<safeguard>` |
| `PolicyConfig.Load` | safeguards/index.js:10-11 | loading succeeds iff the catalogue resolves the module path, and then binds the resolved policy; otherwise it throws module-not-found for that path |
| `PolicyConfig.LoadAll` | safeguards/index.js:48-51 | every configuration is loaded, in order; loading fails iff some module path is unresolved, and the error is module-not-found for the first unresolved path, every earlier one resolving |
| `PolicyConfig.MissingTitleRaises` | safeguards/index.js:26 | an entry with no title throws `ReferenceError("safeguardName")` as written, where the corrected fallback gives `Policy: require-dlq` |
| `PolicyConfig.NormaliseIntended` | safeguards/index.js:26 | with the fallback reading the entry's own `safeguard`, only a non-string path can fail; the title is always truthy, defaults to `Policy: <safeguard>`, and agrees with the as-written normalisation wherever that succeeds |
| `PolicyConfig.NormaliseAllIntended` | safeguards/index.js:21-40 | with the corrected fallback, the list fails only on a non-string path (`TypeError`); otherwise configuration i is the corrected normalisation of entry i, so every configuration has a truthy title and a missing one reads `Policy: <safeguard>` |
| `PolicyConfig.NormaliseIntendedAgrees` | safeguards/index.js:21-40 | wherever the as-written list normalises, the corrected one gives the same configurations |
| `Capability.EvaluateCharacterised` | safeguards/index.js:92-112 | after any sequence of calls: `approved` iff `approve` was called; `failed` iff `fail` was called; the message is the first failure message followed by each later one after a single space. `approve` never clears `failed` or the message |
| `Capability.EvaluateFailedHasMessage` | safeguards/index.js:102-112 | a result is failed exactly when it carries a message |
| `Capability.StepLineCounts` | safeguards/index.js:98-112 | one `approve` writes one passed line; one `fail` writes one failure line if nothing failed before, else none |
| `Capability.FailureLinesOnce` | safeguards/index.js:102-112 | however often `fail` is called, exactly one failed-or-warned line is written, and none if it is never called |
| `Capability.PassedLinePerApprove` | safeguards/index.js:98-101 | the number of passed lines equals the number of `approve` calls |
| `Capability.LineKinds` | safeguards/index.js:98-112 | every line names the policy title; a failure line says `failed` iff the level is `'error'` and `warned` otherwise |
| `Aggregation.BucketsDisjoint` | safeguards/index.js:141-146 | a result is in at most one of passed, marked and skipped; one that called both `approve` and `fail`, or neither, is in none |
| `Aggregation.SummaryAccounts` | safeguards/index.js:141-146 | warnings plus errors equal the marked count; passed + warnings + errors + skipped + both-called + inconclusive equals the number of results |
| `Aggregation.BlocksCharacterised` | safeguards/index.js:171-174 | the deployment is blocked iff some marked result has a level other than `'warning'` |
| `Aggregation.BlocksIffErrors` | safeguards/index.js:143-174 | with only the levels `'error'` and `'warning'` in use, the deployment is blocked iff the error count is positive |
| `Aggregation.OtherLevelCountsAsWarningButBlocks` | safeguards/index.js:143-174 | a failed result at level `'warn'` is counted as one warning and still blocks the deployment |
| `Aggregation.DetailsCharacterised` | safeguards/index.js:153-168 | one detail per marked result, numbered 1..k in marked order. None says "Finished inconclusively"; each carries the result's message, labelled `Failed` iff the level is `'error'` |
| `Artifacts.FromPairs` | safeguards/index.js:88 | the map's keys are exactly the file names, each bound to a value some pair gives that name |
| `Artifacts.ParseArtifact` | safeguards/index.js:65-77 | a file fails iff its decoder rejects it for the format its extension selects, and the failure names the file; a decoded file gives the pair of its name and its decoded value |
| `Artifacts.Compile` | safeguards/index.js:60-79 | compiling succeeds iff every selected file decodes with its format; its keys are exactly the selected files, each bound to its decoding; otherwise the error names a selected file that does not decode |
| `Artifacts.JsonArtifactSelected` | safeguards/index.js:64-70 | `stack.JSON` is an artifact and is read as JSON: the extension is matched whatever its case |
| `Artifacts.YamlArtifactSelected` | safeguards/index.js:64-71 | every file whose name ends in `.yml` or `.yaml`, in any case, is an artifact read as YAML |
| `Artifacts.OtherFilesIgnored` | safeguards/index.js:64 | `service.zip`, and `json` without the dot, are not artifacts |
| `Engine.RunOne` | safeguards/index.js:89-138 | a run is skipped iff the stage does not apply; a skipped run writes running and skipped lines and carries no approval, failure or message. Otherwise approved, failed, the message and inconclusiveness follow the calls made, with one failure line exactly when it failed and one passed line per `approve`. After the running line come exactly the lines the calls write, as `Capability.Lines` gives them |
| `Engine.RunOneLineKinds` | safeguards/index.js:98-112 | in a run that applies, every line after the running line names the policy and is a passed, failed or warned line, never a skipped one; it says `failed` only at level `'error'` and `warned` only at any other level |
| `Engine.SkippedNeverInvoked` | safeguards/index.js:125-129 | a policy whose stage does not apply gives the same run whatever its body does: it is never invoked |
| `Engine.RunAll` | safeguards/index.js:89-140 | one run per policy, in declaration order, each skipped iff its stage does not apply, each result consistent |
| `Engine.NoticesCharacterised` | safeguards/index.js:130-134 | a notice is logged for every run that called neither `approve` nor `fail`, and only for such runs |
| `Engine.NoticesInOrder` | safeguards/index.js:130-134 | the notices follow the inconclusive runs one for one: the k-th notice carries the title of the k-th inconclusive run in declaration order |
| `Engine.AllProgressAppend` | safeguards/index.js:89-137 | the progress written by two batches of runs is the first batch's followed by the second's |
| `Engine.Conclude` | safeguards/index.js:140-176 | the results follow run order; the summary and details are computed from them; the log opens with the two headers and ends with the summary on both paths. The details block is written iff some result is marked; the verdict is blocked iff the deployment is blocked, with the blocking message |
| `Engine.ConcludeChannels` | safeguards/index.js:81-176 | on stdout, each policy's progress lines follow those of every policy declared before it, and one details block closes the output exactly when something is marked. The log is the two headers, then one notice per inconclusive run in declaration order, then the summary, so it has three lines more than there are inconclusive runs |
| `Engine.RunConfigured` | safeguards/index.js:46-176 | the run aborts with module-not-found iff some module path is unresolved, naming the first, after the first log line; it aborts with a parse error iff every module resolves and some artifact does not decode, after logging that artifact's name; it finishes iff both hold. A finished run has one result per configuration, in order, each being the run of the resolved policy against the compiled artifacts and skipped iff its stage does not apply; the summary and details are computed from those results, and the verdict is blocked iff the deployment is blocked, with the blocking message. A finished run is exactly the conclusion of running every loaded policy against the compiled artifacts, so its log and stdout are those `Engine.Conclude` and `Engine.ConcludeChannels` describe |
| `Engine.RunLoaded` | safeguards/index.js:60-176 | with every policy loaded, the run aborts iff some artifact does not decode, after logging its name; otherwise it is the conclusion of running every policy against the compiled artifacts |
| `Engine.RunPolicies` | safeguards/index.js:13-177 | nothing happens iff the list is falsy or empty; a non-list throws `TypeError` before any log; a bad entry aborts before any log with the error of the first bad entry, every earlier entry normalising; a falsy title anywhere aborts. Once every entry normalises, the run is the run of those configurations: it aborts on the first unresolved module or on an undecodable artifact exactly when they occur, and otherwise has one result per entry, with the entry's normalised configuration, skipped iff its stage does not apply, and blocked iff the deployment is blocked |
| `Engine.RunPoliciesIntended` | safeguards/index.js:13-177 | with the corrected title fallback a run never aborts on a reference error: a bad list throws `TypeError` before any log, and a non-empty list that normalises, missing titles included, is run exactly as `RunConfigured` runs its configurations. It coincides with `runPolicies` whenever the as-written normalisation succeeds |
| `Export.EffectiveOrg` | index.js:59 | `--org` wins over the service's `org` when truthy |
| `Export.EffectiveApp` | index.js:60 | `--app` wins over the service's `app` when truthy |
| `Export.StageMapping` | index.js:92-95 | the flattened map lists `default` first with unique keys; every stage maps to the last uid given to it, and `default` maps to the default profile unless a stage of that name overrides it. The keys are `default` and the stages, and the other stages keep their relative order |
| `Export.EarlierStageServes` | index.js:92-118 | when two non-index stages other than `default` both map to a profile, the profile is never exported under the later one |
| `JsObjects.SpreadPositions` | index.js:92-95 | spreading keeps the position of every existing key, puts new keys after them, and keeps the relative order of the new keys |
| `Export.StageOf` | index.js:116-118 | no stage iff no key maps to the profile's uid; otherwise a key mapping to it that no other such key precedes in `Object.keys` order |
| `Export.Setting` | index.js:126-141 | an entry copies title and description, takes `safeguard` from the safeguard name, keeps the level, and takes `config` from the safeguard config. It has no path, and carries a stage iff the stage is not `default` |
| `Export.ExportedStage` | index.js:116-125 | a profile is exported iff it serves a stage whose name is truthy, and then under that stage |
| `Export.ProfileSettings` | index.js:125-144 | an exported profile gives one entry per policy, in order; an unexported profile gives none |
| `Export.Export` | index.js:58-152 | the export fails with missing-app iff the org is set and the app is not, and with missing-access-key iff both are set and the key is not. With all three set it succeeds iff both requests answer, a failed app lookup giving its error before the profiles lookup, and the document lists the plugin and the entries of every profile in profile order |
| `Export.MisconfiguredExportMakesNoRequest` | index.js:63-81 | with a missing org, app or access key the outcome is an error that does not depend on either platform answer |
| `Export.ExportSettingsAppend` | index.js:109-145 | the output follows profile order: exporting a concatenation concatenates the exports |
| `Export.ExportSettingsShape` | index.js:109-145 | the output length is the number of policies on exported profiles; every entry has no path, and either no stage or a stage other than `default` |
| `JsObjects.SpreadGet` | index.js:92-95 | after spreading one object over another, a key reads the last value the spread object gives it, or the original value when the spread object lacks it |
| `JsObjects.FindKeyPosition` | index.js:116-118 | `Object.keys(...).find` finds nothing iff no entry matches; otherwise it finds a match that no other match precedes in enumeration order |
| `JsObjects.IndexKeysEnumeratedFirst` | index.js:116-118 | an array-index key such as `"7"` is enumerated before `default` even when inserted after it |
| `Consistency.ExportedSettingNormalises` | index.js:126-141 | an exported entry normalises iff its title is truthy; it then uses a built-in policy and keeps the dashboard level or `'error'`. It runs under a current stage value iff it came from the default profile or from the profile of the stage that value names |
| `Consistency.ExportedSettingsRunWhereServed` | index.js:135-141 | every exported entry that normalises runs under a current stage value iff it carries no stage or carries exactly that value |
| `Consistency.ExportedDocumentNormalises` | index.js:109-152 | the exported list normalises iff every exported policy has a truthy title, and then yields one configuration per entry |
| `Scenarios.SecretsCalls` | safeguards/index.test.js:27-30 | two `fail('Error Message')` calls leave the result failed, not approved, with message `Error Message Error Message` |
| `Scenarios.SecretsRun` | safeguards/index.test.js:154-243 | the policy that fails twice: at level `warning` the run reports one warning and is allowed, and at level `error` it reports one error and is blocked. Either way one detail carries both messages, stdout is the running line, one failure line and the details, and the log is the headers and the summary |
| `Scenarios.ApprovalsRun` | safeguards/index.test.js:110-153 | two approving policies: the run is allowed with `2 passed`, writes running/passed lines for each in order, writes no details, and logs only the headers and the summary |

## Left out

- File-system access (`readdir`, `readFile`) and JSON/YAML decoding: decoding success and value are a parameter. `safeguards/parse.js` is not part of this model.
- `require`: the catalogue of resolvable module paths is a parameter, and a policy body is a parameter that returns the calls it makes.
- `path.relative`/`path.resolve`: a parameter; only the `./` prefix rule is modelled, with the POSIX separator.
- `cloneDeep`/`omit` of the service declaration, `provider` and `frameworkVersion` in the service object: library copies with no decisions of their own.
- chalk colouring and exact string formatting of log and stdout lines: lines are modelled as events carrying the title, the counts or the message.
- Asynchronous interleaving: policies are treated as running to completion in declaration order (`Promise.all` keeps that order for results). Interleaved progress output from policies that suspend is not modelled.
- An exception thrown from a policy body, and a `fail` message that is not a string: the runtime's rejection is not modelled; messages are strings.
- Numbers are integers; NaN and fractional values in entries are not modelled.
- An entry of `custom.safeguards` that is not an object, and a `readdir` failure: both throw in the runtime and are not modelled.
- Artifacts.FromPairs: states that each key's value comes from some pair with that key, not that the last pair wins; names in one directory listing are distinct, so there is only one.
- Artifacts.Compile: which failing file is reported depends on decoding timing in the program. The contract promises only that the reported file is a selected file that does not decode (the model picks the first in listing order). Only that file's failure line is logged, where the program logs a line for every file that fails to decode.
- The export command's platform requests (`getApp`, `getDeployProfiles`), `process.exit`, the YAML rendering and its log lines: `getApp`'s and `getDeployProfiles`' answers are parameters, and a failed request is an error value.
- Plugin lifecycle wiring in `index.js` (hooks, commands, the un-awaited `runPolicies` call).
- A `readFile` rejection (safeguards/index.js:66, outside the `try`): the run rejects with that error and logs no `Failed to parse` line. The single `parse` parameter can only express an unreadable file as a decoding failure, which logs that line.
- Relative order of the log and stdout channels: a `Report` keeps `cli.log` lines and `process.stdout.write` output as two separate sequences, so their interleaving is lost (for example that the details block is written before the summary lines, safeguards/index.js:169-175).

## Findings

| source | as written | input that shows it | evidently intended | confidence | as-written member | corrected member |
|---|---|---|---|---|---|---|
| safeguards/index.js:26 | the title fallback reads `safeguardName`, which is not bound inside the mapping callback | an entry `{ safeguard: 'require-dlq', enforcementLevel: 'error' }` with no `title` | a default title `Policy: require-dlq` | not executed | `PolicyConfig.MissingTitleRaises` | `PolicyConfig.NormaliseIntended` |

=== FILE: aggregation.dfy ===
/** Classifying the per-policy results, counting them, deciding whether the
    deployment is blocked, and numbering the detail entries
    (safeguards/index.js:141-176). */
module Aggregation {
  import opened Wrappers
  import opened JsValues
  import opened Seqs
  import opened PolicyConfig

  /** The result record of one policy run. */
  datatype PolicyResult = PolicyResult(
    approved: bool,
    failed: bool,
    skipped: bool,
    message: Option<string>,
    policy: Loaded)

  /** What every result the runner builds satisfies: a skipped policy was never
      invoked, and a message is present exactly when `fail` was called. */
  predicate Consistent(r: PolicyResult) {
    && (r.skipped ==> !r.approved && !r.failed)
    && (r.failed <==> r.message.Some?)
  }

  predicate AllConsistent(rs: seq<PolicyResult>) {
    forall i :: 0 <= i < |rs| ==> Consistent(rs[i])
  }

  predicate IsPassed(r: PolicyResult) { r.approved && !r.failed }
  predicate IsMarked(r: PolicyResult) { !r.approved && r.failed }
  predicate IsSkipped(r: PolicyResult) { r.skipped }
  predicate IsErrorLevel(r: PolicyResult) { r.policy.config.enforcementLevel == Str("error") }
  predicate IsNotErrorLevel(r: PolicyResult) { !IsErrorLevel(r) }
  predicate IsWarningLevel(r: PolicyResult) { r.policy.config.enforcementLevel == Str("warning") }

  /** Both `approve` and `fail` were called. */
  predicate IsBothCalled(r: PolicyResult) { r.approved && r.failed }

  /** The policy ran but called neither `approve` nor `fail`. */
  predicate IsInconclusive(r: PolicyResult) { !r.approved && !r.failed && !r.skipped }

  /** The failed results, in declaration order. */
  function Marked(rs: seq<PolicyResult>): seq<PolicyResult> {
    Filter(rs, IsMarked)
  }

  datatype Summary = Summary(passed: nat, warnings: nat, errors: nat, skipped: nat)

  function Summarize(rs: seq<PolicyResult>): Summary {
    var marked := Marked(rs);
    Summary(|Filter(rs, IsPassed)|, |Filter(marked, IsNotErrorLevel)|,
            |Filter(marked, IsErrorLevel)|, |Filter(rs, IsSkipped)|)
  }

  /** `!markedPolicies.every(res => res.approved || level === 'warning')`. */
  predicate BlocksDeployment(rs: seq<PolicyResult>) {
    var marked := Marked(rs);
    !(forall i :: 0 <= i < |marked| ==> marked[i].approved || IsWarningLevel(marked[i]))
  }

  const BlockedMessage := "Deployment blocked by Serverless Safeguards"

  datatype DetailText =
    | InconclusiveText               // "Finished inconclusively. Deployment halted."
    | FailedText(message: string)    // "Failed - <message>"
    | WarnedText(message: string)    // "Warned - <message>"

  /** One numbered entry of the details block. */
  datatype Detail = Detail(number: nat, text: DetailText, docs: JsValue, description: JsValue)

  function ResolveMessage(r: PolicyResult): DetailText {
    if !r.failed then InconclusiveText
    else if IsErrorLevel(r) then FailedText(r.message.GetOr("undefined"))
    else WarnedText(r.message.GetOr("undefined"))
  }

  /** The details block: one entry per marked result, numbered from 1. */
  function Details(rs: seq<PolicyResult>): seq<Detail> {
    var marked := Marked(rs);
    seq(|marked|, i requires 0 <= i < |marked| =>
      Detail(i + 1, ResolveMessage(marked[i]), marked[i].policy.fn.docs, marked[i].policy.config.description))
  }

  /** Each consistent result lands in at most one bucket; one on which both
      `approve` and `fail` were called lands in none, and neither does one
      that called neither. */
  lemma BucketsDisjoint(r: PolicyResult)
    requires Consistent(r)
    ensures !(IsPassed(r) && IsMarked(r)) && !(IsPassed(r) && IsSkipped(r)) && !(IsMarked(r) && IsSkipped(r))
    ensures IsBothCalled(r) ==> !IsPassed(r) && !IsMarked(r) && !IsSkipped(r)
    ensures IsInconclusive(r) ==> !IsPassed(r) && !IsMarked(r) && !IsSkipped(r)
  {
  }

  lemma {:induction false} SummarizeCons(r: PolicyResult, rs: seq<PolicyResult>)
    ensures Marked([r] + rs) == Filter([r], IsMarked) + Marked(rs)
    ensures forall p: PolicyResult -> bool :: Filter([r] + rs, p) == Filter([r], p) + Filter(rs, p)
  {
    forall p: PolicyResult -> bool
      ensures Filter([r] + rs, p) == Filter([r], p) + Filter(rs, p)
    {
      FilterAppend([r], rs, p);
    }
  }

  /** The four counts account for every result except those that called both
      or neither: warnings and errors split the marked results, and
      passed + warnings + errors + skipped + both + inconclusive = N. */
  lemma {:induction false} SummaryAccounts(rs: seq<PolicyResult>)
    requires AllConsistent(rs)
    ensures var s := Summarize(rs);
      && s.warnings + s.errors == |Marked(rs)|
      && s.passed + s.warnings + s.errors + s.skipped
         + |Filter(rs, IsBothCalled)| + |Filter(rs, IsInconclusive)| == |rs|
  {
    if |rs| > 0 {
      var r, rest := rs[0], rs[1..];
      assert rs == [r] + rest;
      SummaryAccounts(rest);
      SummarizeCons(r, rest);
      var m := Filter([r], IsMarked);
      FilterAppend(m, Marked(rest), IsErrorLevel);
      FilterAppend(m, Marked(rest), IsNotErrorLevel);
      FilterSingleton(r, IsMarked);
      FilterSingleton(r, IsPassed);
      FilterSingleton(r, IsSkipped);
      FilterSingleton(r, IsBothCalled);
      FilterSingleton(r, IsInconclusive);
      FilterSingleton(r, IsErrorLevel);
      FilterSingleton(r, IsNotErrorLevel);
    }
  }

  /** The run is blocked exactly when some failed result has a level other than
      `'warning'`. */
  lemma BlocksCharacterised(rs: seq<PolicyResult>)
    ensures BlocksDeployment(rs) <==> exists i :: 0 <= i < |rs| && IsMarked(rs[i]) && !IsWarningLevel(rs[i])
  {
    var marked := Marked(rs);
    if BlocksDeployment(rs) {
      var k :| 0 <= k < |marked| && !(marked[k].approved || IsWarningLevel(marked[k]));
      var i :| 0 <= i < |rs| && rs[i] == marked[k];
    } else {
      forall i | 0 <= i < |rs| && IsMarked(rs[i])
        ensures IsWarningLevel(rs[i])
      {
        var k :| 0 <= k < |marked| && marked[k] == rs[i];
      }
    }
  }

  /** With only the two documented levels in use, the run is blocked exactly
      when the error count is positive. */
  lemma BlocksIffErrors(rs: seq<PolicyResult>)
    requires forall i :: 0 <= i < |rs| ==>
      rs[i].policy.config.enforcementLevel == Str("error") || rs[i].policy.config.enforcementLevel == Str("warning")
    ensures BlocksDeployment(rs) <==> Summarize(rs).errors > 0
  {
    BlocksCharacterised(rs);
    var marked := Marked(rs);
    var errs := Filter(marked, IsErrorLevel);
    if BlocksDeployment(rs) {
      var i :| 0 <= i < |rs| && IsMarked(rs[i]) && !IsWarningLevel(rs[i]);
      assert rs[i] in marked;
      var k :| 0 <= k < |marked| && marked[k] == rs[i];
      assert IsErrorLevel(marked[k]);
      assert marked[k] in errs;
    }
    if |errs| > 0 {
      assert errs[0] in marked;
    }
  }

  /** A level that is neither `'error'` nor `'warning'` (say `'warn'`) is
      counted as a warning and still blocks the deployment. */
  lemma OtherLevelCountsAsWarningButBlocks(r: PolicyResult)
    requires Consistent(r) && IsMarked(r)
    requires r.policy.config.enforcementLevel == Str("warn")
    ensures Summarize([r]) == Summary(0, 1, 0, 0)
    ensures BlocksDeployment([r])
  {
    FilterSingleton(r, IsMarked);
    FilterSingleton(r, IsPassed);
    FilterSingleton(r, IsSkipped);
    FilterSingleton(r, IsErrorLevel);
    FilterSingleton(r, IsNotErrorLevel);
    assert Marked([r]) == [r];
    assert "warn" != "error" by { assert |"warn"| != |"error"|; }
    assert IsNotErrorLevel(r) && !IsErrorLevel(r);
    assert Filter([r], IsPassed) == [] && Filter([r], IsSkipped) == [];
    assert Filter(Marked([r]), IsNotErrorLevel) == [r];
    assert Filter(Marked([r]), IsErrorLevel) == [];
  }

  /** The details are numbered 1..k in marked order, and the inconclusive text
      never appears: every marked result has `failed` set, so each entry
      carries the failure message, labelled by level. */
  lemma DetailsCharacterised(rs: seq<PolicyResult>)
    requires AllConsistent(rs)
    ensures var ds, marked := Details(rs), Marked(rs);
      && |ds| == |marked|
      && forall i :: 0 <= i < |ds| ==>
        && ds[i].number == i + 1
        && ds[i].text != InconclusiveText
        && Some(ds[i].text.message) == marked[i].message
        && (ds[i].text.FailedText? <==> IsErrorLevel(marked[i]))
  {
    var marked := Marked(rs);
    forall i | 0 <= i < |marked|
      ensures Consistent(marked[i]) && IsMarked(marked[i])
    {
      assert marked[i] in rs;
    }
  }
}

=== FILE: artifacts.dfy ===
/** Choosing which files of the `.serverless` directory become compiled
    artifacts and how each is decoded (safeguards/index.js:60-79, 88). Reading
    the files and the JSON/YAML decoders themselves are a `parse` parameter. */
module Artifacts {
  import opened Wrappers
  import opened JsValues
  import opened Seqs

  datatype Format = Json | Yaml

  function LowerAscii(c: char): char {
    if 'A' <= c <= 'Z' then (c as int + 32) as char else c
  }

  function Lower(s: string): (r: string)
    ensures |r| == |s|
  {
    seq(|s|, i requires 0 <= i < |s| => LowerAscii(s[i]))
  }

  /** `suffix` (lower case) ends `name`, ignoring ASCII case: the `/…$/i` match. */
  predicate EndsWithIgnoringCase(name: string, suffix: string) {
    |suffix| <= |name| && Lower(name[|name| - |suffix|..]) == suffix
  }

  /** `/\.(json|yml|yaml)$/i`. */
  predicate IsArtifactName(name: string) {
    EndsWithIgnoringCase(name, ".json") || EndsWithIgnoringCase(name, ".yml") || EndsWithIgnoringCase(name, ".yaml")
  }

  /** `/\.json$/i` picks the JSON decoder; every other artifact is YAML. */
  function FormatOf(name: string): Format {
    if EndsWithIgnoringCase(name, ".json") then Json else Yaml
  }

  function SelectArtifacts(names: seq<string>): seq<string> {
    Filter(names, IsArtifactName)
  }

  function ParseArtifact(name: string, parse: (Format, string) -> Option<JsValue>): (r: Result<(string, JsValue), Exception>)
    ensures r.Err? <==> parse(FormatOf(name), name).None?
    ensures r.Err? ==> r.error == ParseError(name)
    ensures r.Ok? ==> r.value == (name, parse(FormatOf(name), name).value)
  {
    match parse(FormatOf(name), name)
    case None => Err(ParseError(name))
    case Some(v) => Ok((name, v))
  }

  /** `fromPairs`: every key of the pairs, each bound to the value of the last
      pair with that key. The contract promises only some pair's value, which
      is the same thing when the names are distinct. */
  function FromPairs(ps: seq<(string, JsValue)>): (m: map<string, JsValue>)
    ensures m.Keys == set i | 0 <= i < |ps| :: ps[i].0
    ensures forall k :: k in m ==> exists i :: 0 <= i < |ps| && ps[i] == (k, m[k])
  {
    if |ps| == 0 then map[]
    else
      var m := FromPairs(ps[..|ps| - 1]);
      var last := ps[|ps| - 1];
      assert forall i :: 0 <= i < |ps| - 1 ==> ps[..|ps| - 1][i] == ps[i];
      m[last.0 := last.1]
  }

  /** The compiled-artifact mapping: every selected file decoded with the
      decoder its extension picks; the first file, in listing order, that does
      not decode aborts the run. */
  function Compile(names: seq<string>, parse: (Format, string) -> Option<JsValue>): (r: Result<map<string, JsValue>, Exception>)
    ensures r.Ok? <==> forall i :: 0 <= i < |names| && IsArtifactName(names[i]) ==> parse(FormatOf(names[i]), names[i]).Some?
    ensures r.Ok? ==> r.value.Keys == set i | 0 <= i < |names| && IsArtifactName(names[i]) :: names[i]
    ensures r.Ok? ==> forall k :: k in r.value ==> parse(FormatOf(k), k) == Some(r.value[k])
    ensures r.Err? ==> r.error.ParseError?
    ensures r.Err? ==> exists i ::
      && 0 <= i < |names|
      && IsArtifactName(names[i])
      && r.error == ParseError(names[i])
      && parse(FormatOf(names[i]), names[i]).None?
  {
    var selected := SelectArtifacts(names);
    var parsed :- MapResult(selected, (n: string) => ParseArtifact(n, parse));
    Ok(FromPairs(parsed))
  }

  /** The CloudFormation template is picked up and read as JSON, whatever
      the case of its extension. */
  lemma JsonArtifactSelected()
    ensures IsArtifactName("stack.JSON") && FormatOf("stack.JSON") == Json
  {
    assert "stack.JSON"[5..] == ".JSON";
    assert Lower(".JSON") == ".json";
  }

  /** A name that ends in `suffix`, ignoring case, ends in the suffix's last
      letter once lowered. */
  lemma LastLetterMatches(name: string, suffix: string)
    ensures |suffix| > 0 && EndsWithIgnoringCase(name, suffix) ==> LowerAscii(name[|name| - 1]) == suffix[|suffix| - 1]
  {
    if |suffix| > 0 && EndsWithIgnoringCase(name, suffix) {
      assert Lower(name[|name| - |suffix|..])[|suffix| - 1] == LowerAscii(name[|name| - 1]);
    }
  }

  /** Every name ending in `.yml` or `.yaml`, in any case, is an artifact read
      as YAML: such a name cannot also end in `.json`, since its last letter is
      an `l` and not an `n`. */
  lemma YamlArtifactSelected(name: string)
    requires EndsWithIgnoringCase(name, ".yml") || EndsWithIgnoringCase(name, ".yaml")
    ensures IsArtifactName(name) && FormatOf(name) == Yaml
  {
    LastLetterMatches(name, ".yml");
    LastLetterMatches(name, ".yaml");
    LastLetterMatches(name, ".json");
  }

  /** Other files, and a bare `json` without the dot, are not artifacts. */
  lemma OtherFilesIgnored()
    ensures !IsArtifactName("service.zip")
    ensures !IsArtifactName("json")
  {
    assert "service.zip"[10] == 'p' && "json"[3] == 'n';
    LastLetterMatches("service.zip", ".json");
    LastLetterMatches("service.zip", ".yml");
    LastLetterMatches("service.zip", ".yaml");
    LastLetterMatches("json", ".yml");
  }
}

=== FILE: capability.dfy ===
/** The `{ approve, fail }` handle given to a policy (safeguards/index.js:92-113).
    A policy run is the finite sequence of calls it makes on the handle; the
    result record is the fold of those calls over a fresh record, and the
    progress lines are what each call writes. */
module Capability {
  import opened Wrappers
  import opened JsValues

  datatype Call = Approve | Fail(message: string)

  /** The mutable part of a result record: `approved`, `failed`, `message`. */
  datatype Outcome = Outcome(approved: bool, failed: bool, message: Option<string>)

  const Fresh := Outcome(false, false, None)

  /** The progress lines a policy run writes to standard output. */
  datatype Progress =
    | RunningLine(title: JsValue)
    | PassedLine(title: JsValue)
    | FailedLine(title: JsValue)
    | WarnedLine(title: JsValue)
    | SkippedLine(title: JsValue)

  /** One call on the handle. */
  function Step(o: Outcome, c: Call): Outcome {
    match c
    case Approve => o.(approved := true)
    case Fail(m) =>
      if o.failed then o.(message := Some(o.message.GetOr("undefined") + " " + m))
      else o.(failed := true, message := Some(m))
  }

  /** What one call writes: `approve` writes a passed line every time; `fail`
      writes a failed or warned line only the first time. */
  function StepLines(o: Outcome, c: Call, level: JsValue, title: JsValue): seq<Progress> {
    match c
    case Approve => [PassedLine(title)]
    case Fail(_) =>
      if o.failed then []
      else if level == Str("error") then [FailedLine(title)]
      else [WarnedLine(title)]
  }

  /** The record after a whole sequence of calls. */
  function Evaluate(calls: seq<Call>): Outcome {
    if |calls| == 0 then Fresh
    else Step(Evaluate(calls[..|calls| - 1]), calls[|calls| - 1])
  }

  /** The lines a whole sequence of calls writes, in call order. */
  function Lines(calls: seq<Call>, level: JsValue, title: JsValue): seq<Progress> {
    if |calls| == 0 then []
    else
      var prefix := calls[..|calls| - 1];
      Lines(prefix, level, title) + StepLines(Evaluate(prefix), calls[|calls| - 1], level, title)
  }

  /** The messages passed to `fail`, in call order. */
  function FailMessages(calls: seq<Call>): seq<string> {
    if |calls| == 0 then []
    else (if calls[0].Fail? then [calls[0].message] else []) + FailMessages(calls[1..])
  }

  /** The messages joined by single spaces. */
  function JoinSpaced(ms: seq<string>): string
    requires |ms| > 0
  {
    if |ms| == 1 then ms[0] else ms[0] + " " + JoinSpaced(ms[1..])
  }

  function ApproveCount(calls: seq<Call>): nat {
    if |calls| == 0 then 0 else (if calls[0].Approve? then 1 else 0) + ApproveCount(calls[1..])
  }

  predicate IsFailureLine(l: Progress) {
    l.FailedLine? || l.WarnedLine?
  }

  function FailureLineCount(ls: seq<Progress>): nat {
    if |ls| == 0 then 0 else (if IsFailureLine(ls[0]) then 1 else 0) + FailureLineCount(ls[1..])
  }

  function PassedLineCount(ls: seq<Progress>): nat {
    if |ls| == 0 then 0 else (if ls[0].PassedLine? then 1 else 0) + PassedLineCount(ls[1..])
  }

  lemma {:induction false} FailMessagesSnoc(calls: seq<Call>, c: Call)
    ensures FailMessages(calls + [c]) == FailMessages(calls) + (if c.Fail? then [c.message] else [])
  {
    if |calls| == 0 {
      assert calls + [c] == [c];
      assert [c][1..] == [];
    } else {
      assert (calls + [c])[0] == calls[0];
      assert (calls + [c])[1..] == calls[1..] + [c];
      FailMessagesSnoc(calls[1..], c);
    }
  }

  lemma {:induction false} JoinSpacedSnoc(ms: seq<string>, m: string)
    requires |ms| > 0
    ensures JoinSpaced(ms + [m]) == JoinSpaced(ms) + " " + m
  {
    if |ms| == 1 {
      assert (ms + [m])[1..] == [m];
    } else {
      assert (ms + [m])[1..] == ms[1..] + [m];
      JoinSpacedSnoc(ms[1..], m);
    }
  }

  lemma {:induction false} ApproveCountSnoc(calls: seq<Call>, c: Call)
    ensures ApproveCount(calls + [c]) == ApproveCount(calls) + (if c.Approve? then 1 else 0)
  {
    if |calls| == 0 {
      assert calls + [c] == [c];
      assert [c][1..] == [];
    } else {
      assert (calls + [c])[1..] == calls[1..] + [c];
      ApproveCountSnoc(calls[1..], c);
    }
  }

  lemma {:induction false} LineCountsAppend(a: seq<Progress>, b: seq<Progress>)
    ensures FailureLineCount(a + b) == FailureLineCount(a) + FailureLineCount(b)
    ensures PassedLineCount(a + b) == PassedLineCount(a) + PassedLineCount(b)
  {
    if |a| == 0 {
      assert a + b == b;
    } else {
      assert (a + b)[0] == a[0];
      assert (a + b)[1..] == a[1..] + b;
      LineCountsAppend(a[1..], b);
    }
  }

  /** The record a run leaves behind, stated without the fold: `approved` iff
      `approve` was called at all, `failed` iff `fail` was called at all, and
      the message is the first failure message followed by every later one,
      each after a single space. `approve` never clears `failed` or `message`. */
  lemma {:induction false} EvaluateCharacterised(calls: seq<Call>)
    ensures Evaluate(calls).approved <==> Approve in calls
    ensures Evaluate(calls).failed <==> |FailMessages(calls)| > 0
    ensures Evaluate(calls).message ==
      if |FailMessages(calls)| == 0 then None else Some(JoinSpaced(FailMessages(calls)))
  {
    if |calls| > 0 {
      var prefix, c := calls[..|calls| - 1], calls[|calls| - 1];
      assert calls == prefix + [c];
      EvaluateCharacterised(prefix);
      FailMessagesSnoc(prefix, c);
      var ms := FailMessages(prefix);
      match c
      case Approve =>
        assert FailMessages(calls) == ms;
      case Fail(m) =>
        assert FailMessages(calls) == ms + [m];
        if |ms| > 0 {
          JoinSpacedSnoc(ms, m);
        } else {
          assert ms + [m] == [m];
        }
    }
  }

  /** A result record is failed exactly when it carries a message. */
  lemma EvaluateFailedHasMessage(calls: seq<Call>)
    ensures Evaluate(calls).failed <==> Evaluate(calls).message.Some?
  {
    EvaluateCharacterised(calls);
  }

  /** What one call adds to the two line counts. */
  lemma StepLineCounts(o: Outcome, c: Call, level: JsValue, title: JsValue)
    ensures FailureLineCount(StepLines(o, c, level, title)) == if c.Fail? && !o.failed then 1 else 0
    ensures PassedLineCount(StepLines(o, c, level, title)) == if c.Approve? then 1 else 0
  {
    var step := StepLines(o, c, level, title);
    assert step == [] || step[1..] == [];
  }

  /** However often `fail` is called, exactly one failed-or-warned line is
      written (none if it is never called). */
  lemma {:induction false} FailureLinesOnce(calls: seq<Call>, level: JsValue, title: JsValue)
    ensures FailureLineCount(Lines(calls, level, title)) == if |FailMessages(calls)| > 0 then 1 else 0
  {
    if |calls| > 0 {
      var prefix, c := calls[..|calls| - 1], calls[|calls| - 1];
      assert calls == prefix + [c];
      FailureLinesOnce(prefix, level, title);
      EvaluateCharacterised(prefix);
      FailMessagesSnoc(prefix, c);
      var step := StepLines(Evaluate(prefix), c, level, title);
      LineCountsAppend(Lines(prefix, level, title), step);
      StepLineCounts(Evaluate(prefix), c, level, title);
      assert Lines(calls, level, title) == Lines(prefix, level, title) + step;
      assert |FailMessages(calls)| > 0 <==> |FailMessages(prefix)| > 0 || c.Fail?;
    }
  }

  /** Every `approve` call writes its own passed line. */
  lemma {:induction false} PassedLinePerApprove(calls: seq<Call>, level: JsValue, title: JsValue)
    ensures PassedLineCount(Lines(calls, level, title)) == ApproveCount(calls)
  {
    if |calls| > 0 {
      var prefix, c := calls[..|calls| - 1], calls[|calls| - 1];
      assert calls == prefix + [c];
      PassedLinePerApprove(prefix, level, title);
      ApproveCountSnoc(prefix, c);
      var step := StepLines(Evaluate(prefix), c, level, title);
      LineCountsAppend(Lines(prefix, level, title), step);
      StepLineCounts(Evaluate(prefix), c, level, title);
      assert Lines(calls, level, title) == Lines(prefix, level, title) + step;
    }
  }

  /** Every line names the policy, and a failure line says `failed` exactly
      when the level is `'error'` and `warned` otherwise. */
  lemma {:induction false} LineKinds(calls: seq<Call>, level: JsValue, title: JsValue)
    ensures forall l :: l in Lines(calls, level, title) ==>
      && l.title == title
      && (l.PassedLine? || l.FailedLine? || l.WarnedLine?)
      && (l.FailedLine? ==> level == Str("error"))
      && (l.WarnedLine? ==> level != Str("error"))
  {
    if |calls| > 0 {
      var prefix, c := calls[..|calls| - 1], calls[|calls| - 1];
      LineKinds(prefix, level, title);
    }
  }
}

=== FILE: consistency.dfy ===
/** The export command writes exactly the entries `runPolicies` reads: what an
    exported entry becomes once the engine normalises it, and in which stages
    it runs (index.js:126-141 against safeguards/index.js:21-40, 115-123). */
module Consistency {
  import opened Wrappers
  import opened JsValues
  import opened JsObjects
  import opened PolicyConfig
  import opened Export

  /** An exported entry normalises exactly when its dashboard title is truthy;
      it then loads a built-in policy, keeps the dashboard's level (or
      `'error'`), and runs in stage `current` exactly when it came from the
      default profile or from the profile of `current` itself. */
  lemma ExportedSettingNormalises(p: DashboardPolicy, stage: string, current: JsValue, relativize: string -> string)
    requires stage != ""
    ensures var r := Normalise(Setting(p, stage), relativize);
      && (r.Ok? <==> Truthy(p.title))
      && (r.Ok? ==> r.value.policyPath == None)
      && (r.Ok? ==> r.value.enforcementLevel == Or(p.enforcementLevel, DefaultLevel))
      && (r.Ok? ==> (StageApplies(r.value.stage, current) <==> stage == DefaultStage || current == Str(stage)))
  {
  }

  /** Over a whole export: every entry that normalises runs in `current`
      exactly when it carries no stage or carries `current`. */
  lemma ExportedSettingsRunWhereServed(profiles: seq<Profile>, mapping: Entries, current: JsValue, relativize: string -> string)
    ensures forall s :: s in ExportSettings(profiles, mapping) && Normalise(s, relativize).Ok? ==>
      (StageApplies(Normalise(s, relativize).value.stage, current) <==> s.stage == Undefined || s.stage == current)
  {
    ExportSettingsShape(profiles, mapping);
  }

  /** The exported document is accepted by the engine's normalisation exactly
      when every exported policy has a truthy title; it then yields one
      configuration per entry, in order. */
  lemma ExportedDocumentNormalises(profiles: seq<Profile>, mapping: Entries, relativize: string -> string)
    ensures var settings := ExportSettings(profiles, mapping);
      var r := NormaliseAll(Entries(settings), relativize);
      && (r.Ok? <==> forall i :: 0 <= i < |settings| ==> Truthy(settings[i].title))
      && (r.Ok? ==> |r.value| == |settings|)
  {
    var settings := ExportSettings(profiles, mapping);
    ExportSettingsShape(profiles, mapping);
    forall i | 0 <= i < |settings|
      ensures Normalise(settings[i], relativize).Ok? <==> Truthy(settings[i].title)
    {
      assert settings[i] in settings;
    }
  }
}

=== FILE: engine.dfy ===
/** `runPolicies` (safeguards/index.js:13-177): normalise the configured
    policies, load them, decode the artifacts, run every policy against the
    snapshot, and conclude. The policies run concurrently in the source, but each
    one only touches its own result record and the join keeps declaration
    order, so an order-preserving map is the same computation. */
module Engine {
  import opened Wrappers
  import opened JsValues
  import opened Seqs
  import opened PolicyConfig
  import opened Capability
  import opened Aggregation
  import opened Artifacts

  /** The part of the snapshot handed to every policy that the model keeps. */
  datatype Service = Service(compiled: map<string, JsValue>, stage: JsValue)

  /** What a policy does with its handle, given its function, the snapshot and
      its `config`: the policy body itself is not modelled. */
  type Invoker = (PolicyFn, Service, JsValue) -> seq<Call>

  datatype PolicyRun = PolicyRun(result: PolicyResult, progress: seq<Progress>, inconclusive: bool)

  /** Lines written through `ctx.sls.cli.log`. */
  datatype Log =
    | ProcessingStarted                   // "Safeguards Processing..."
    | ParseFailed(file: string)           // "(Safeguards) Failed to parse file ..."
    | ResultsHeader                       // "Safeguards Results: ... Summary ---"
    | InconclusiveNotice(title: JsValue)  // "... did not explicitly approve the deployment ..."
    | SummaryLine(summary: Summary)       // "Safeguards Summary: ..."

  /** Writes to standard output. */
  datatype Output = ProgressOut(line: Progress) | DetailsOut(details: seq<Detail>)

  datatype Report = Report(
    results: seq<PolicyResult>,
    summary: Summary,
    details: seq<Detail>,
    logs: seq<Log>,
    stdout: seq<Output>)

  /** How `runPolicies` ends: it returns at once, returns after reporting,
      throws the blocking error after reporting, or throws an earlier error. */
  datatype Verdict =
    | NothingConfigured
    | Allowed(report: Report)
    | Blocked(report: Report, reason: string)
    | Aborted(error: Exception, logs: seq<Log>)
  {
    predicate Finished() { Allowed? || Blocked? }
  }

  /** Everything `runPolicies` reads from its context, with the I/O and the
      policy bodies as parameters. */
  datatype Environment = Environment(
    declared: Declared,
    stage: JsValue,          // `ctx.provider.options.stage`, `Undefined` when not given
    relativize: string -> string,
    catalogue: map<string, PolicyFn>,
    artifactNames: seq<string>,
    parse: (Format, string) -> Option<JsValue>,
    invoke: Invoker)

  /** One policy: skipped without being invoked when its stage does not apply,
      otherwise invoked once with a fresh handle. */
  function RunOne(p: Loaded, service: Service, invoke: Invoker): (run: PolicyRun)
    ensures run.result.policy == p
    ensures run.result.skipped <==> !StageApplies(p.config.stage, service.stage)
    ensures Consistent(run.result)
    ensures |run.progress| > 0 && run.progress[0] == RunningLine(p.config.title)
    ensures run.result.skipped ==>
      && !run.result.approved && !run.result.failed && run.result.message == None
      && run.progress == [RunningLine(p.config.title), SkippedLine(p.config.title)]
      && !run.inconclusive
    ensures !run.result.skipped ==>
      var calls := invoke(p.fn, service, p.config.safeguardConfig);
      && (run.result.approved <==> Approve in calls)
      && (run.result.failed <==> |FailMessages(calls)| > 0)
      && (run.result.failed ==> run.result.message == Some(JoinSpaced(FailMessages(calls))))
      && (run.inconclusive <==> Approve !in calls && |FailMessages(calls)| == 0)
      && FailureLineCount(run.progress) == (if run.result.failed then 1 else 0)
      && PassedLineCount(run.progress) == ApproveCount(calls)
      && run.progress == [RunningLine(p.config.title)] + Lines(calls, p.config.enforcementLevel, p.config.title)
  {
    var title := p.config.title;
    if !StageApplies(p.config.stage, service.stage) then
      PolicyRun(PolicyResult(false, false, true, None, p), [RunningLine(title), SkippedLine(title)], false)
    else
      var calls := invoke(p.fn, service, p.config.safeguardConfig);
      var level := p.config.enforcementLevel;
      var o := Evaluate(calls);
      EvaluateCharacterised(calls);
      FailureLinesOnce(calls, level, title);
      PassedLinePerApprove(calls, level, title);
      LineCountsAppend([RunningLine(title)], Lines(calls, level, title));
      PolicyRun(PolicyResult(o.approved, o.failed, false, o.message, p),
                [RunningLine(title)] + Lines(calls, level, title),
                !o.approved && !o.failed)
  }

  /** The lines a policy that applies writes after its running line: each
      names the policy, is a passed, failed or warned line (never a skipped
      one), and says `failed` only at level `'error'` and `warned` only at
      any other level. */
  lemma RunOneLineKinds(p: Loaded, service: Service, invoke: Invoker)
    requires StageApplies(p.config.stage, service.stage)
    ensures var run := RunOne(p, service, invoke);
      forall j :: 1 <= j < |run.progress| ==>
        && run.progress[j].title == p.config.title
        && (run.progress[j].PassedLine? || run.progress[j].FailedLine? || run.progress[j].WarnedLine?)
        && (run.progress[j].FailedLine? ==> p.config.enforcementLevel == Str("error"))
        && (run.progress[j].WarnedLine? ==> p.config.enforcementLevel != Str("error"))
  {
    var run := RunOne(p, service, invoke);
    var lines := Lines(invoke(p.fn, service, p.config.safeguardConfig), p.config.enforcementLevel, p.config.title);
    LineKinds(invoke(p.fn, service, p.config.safeguardConfig), p.config.enforcementLevel, p.config.title);
    forall j | 1 <= j < |run.progress|
      ensures run.progress[j] in lines
    {
      assert run.progress[j] == lines[j - 1];
    }
  }

  /** A skipped policy's run does not depend on the policy body at all: it is
      never invoked. */
  lemma SkippedNeverInvoked(p: Loaded, service: Service, invoke1: Invoker, invoke2: Invoker)
    requires !StageApplies(p.config.stage, service.stage)
    ensures RunOne(p, service, invoke1) == RunOne(p, service, invoke2)
  {
  }

  /** `Promise.all(policies.map(...))`: one run per policy, in declaration order. */
  function RunAll(ps: seq<Loaded>, service: Service, invoke: Invoker): (runs: seq<PolicyRun>)
    ensures |runs| == |ps|
    ensures forall i :: 0 <= i < |ps| ==> runs[i] == RunOne(ps[i], service, invoke)
    ensures forall i :: 0 <= i < |ps| ==>
      && runs[i].result.policy == ps[i]
      && (runs[i].result.skipped <==> !StageApplies(ps[i].config.stage, service.stage))
      && Consistent(runs[i].result)
  {
    seq(|ps|, i requires 0 <= i < |ps| => RunOne(ps[i], service, invoke))
  }

  function ProgressOutputs(run: PolicyRun): seq<Output> {
    seq(|run.progress|, j requires 0 <= j < |run.progress| => ProgressOut(run.progress[j]))
  }

  /** Every run's progress lines, in declaration order. */
  function AllProgress(runs: seq<PolicyRun>): (out: seq<Output>)
    ensures forall o :: o in out ==> o.ProgressOut?
  {
    if |runs| == 0 then [] else ProgressOutputs(runs[0]) + AllProgress(runs[1..])
  }

  /** The progress of two batches of runs is the first batch's, then the
      second's. */
  lemma {:induction false} AllProgressAppend(a: seq<PolicyRun>, b: seq<PolicyRun>)
    ensures AllProgress(a + b) == AllProgress(a) + AllProgress(b)
  {
    if |a| == 0 {
      assert a + b == b;
    } else {
      assert (a + b)[0] == a[0];
      assert (a + b)[1..] == a[1..] + b;
      AllProgressAppend(a[1..], b);
      AppendAssociates(ProgressOutputs(a[0]), AllProgress(a[1..]), AllProgress(b));
    }
  }

  predicate IsInconclusive(run: PolicyRun) { run.inconclusive }

  function Notices(runs: seq<PolicyRun>): seq<Log> {
    if |runs| == 0 then []
    else (if runs[0].inconclusive then [InconclusiveNotice(runs[0].result.policy.config.title)] else [])
         + Notices(runs[1..])
  }

  /** Notices are logged for the runs that called neither `approve` nor
      `fail`, and for no other run; `NoticesInOrder` gives their count and
      order. */
  lemma {:induction false} NoticesCharacterised(runs: seq<PolicyRun>)
    ensures |Notices(runs)| <= |runs|
    ensures forall l :: l in Notices(runs) ==> l.InconclusiveNotice?
    ensures forall i :: 0 <= i < |runs| && runs[i].inconclusive ==>
      InconclusiveNotice(runs[i].result.policy.config.title) in Notices(runs)
    ensures forall t :: InconclusiveNotice(t) in Notices(runs) ==>
      exists i :: 0 <= i < |runs| && runs[i].inconclusive && runs[i].result.policy.config.title == t
  {
    if |runs| > 0 {
      NoticesCharacterised(runs[1..]);
      var head := if runs[0].inconclusive then [InconclusiveNotice(runs[0].result.policy.config.title)] else [];
      assert Notices(runs) == head + Notices(runs[1..]);
      forall i | 0 <= i < |runs| && runs[i].inconclusive
        ensures InconclusiveNotice(runs[i].result.policy.config.title) in Notices(runs)
      {
        if i > 0 {
          assert runs[1..][i - 1] == runs[i];
        }
      }
      forall t | InconclusiveNotice(t) in Notices(runs)
        ensures exists i :: 0 <= i < |runs| && runs[i].inconclusive && runs[i].result.policy.config.title == t
      {
        if InconclusiveNotice(t) !in head {
          var j :| 0 <= j < |runs[1..]| && runs[1..][j].inconclusive && runs[1..][j].result.policy.config.title == t;
          assert runs[j + 1] == runs[1..][j];
        }
      }
    }
  }

  /** The notices follow the inconclusive runs one for one, in declaration
      order: the k-th notice carries the title of the k-th run that called
      neither `approve` nor `fail`. */
  lemma {:induction false} NoticesInOrder(runs: seq<PolicyRun>)
    ensures |Notices(runs)| == |Filter(runs, IsInconclusive)|
    ensures forall k :: 0 <= k < |Notices(runs)| ==>
      Notices(runs)[k] == InconclusiveNotice(Filter(runs, IsInconclusive)[k].result.policy.config.title)
  {
    if |runs| > 0 {
      NoticesInOrder(runs[1..]);
      var rest, restKept := Notices(runs[1..]), Filter(runs[1..], IsInconclusive);
      if runs[0].inconclusive {
        var n := InconclusiveNotice(runs[0].result.policy.config.title);
        assert Notices(runs) == [n] + rest;
        assert Filter(runs, IsInconclusive) == [runs[0]] + restKept;
      } else {
        assert Notices(runs) == [] + rest;
        assert Filter(runs, IsInconclusive) == [] + restKept;
      }
    }
  }

  /** Aggregation and the enforcement decision over the joined runs: the
      summary is logged last on both paths, the details block is written
      exactly when some result is marked, and the run throws the blocking
      error exactly when `BlocksDeployment` holds. */
  function Conclude(runs: seq<PolicyRun>): (v: Verdict)
    ensures v.Finished()
    ensures |v.report.results| == |runs| && forall i :: 0 <= i < |runs| ==> v.report.results[i] == runs[i].result
    ensures v.report.summary == Summarize(v.report.results)
    ensures v.report.details == Details(v.report.results)
    ensures |v.report.logs| >= 3 && v.report.logs[0] == ProcessingStarted && v.report.logs[1] == ResultsHeader
    ensures v.report.logs[|v.report.logs| - 1] == SummaryLine(v.report.summary)
    ensures DetailsOut(v.report.details) in v.report.stdout <==> |Marked(v.report.results)| > 0
    ensures v.Blocked? <==> BlocksDeployment(v.report.results)
    ensures v.Blocked? ==> v.reason == BlockedMessage
  {
    var results := seq(|runs|, i requires 0 <= i < |runs| => runs[i].result);
    var summary := Summarize(results);
    var details := Details(results);
    var progress := AllProgress(runs);
    var stdout := progress + (if |Marked(results)| != 0 then [DetailsOut(details)] else []);
    var logs := [ProcessingStarted, ResultsHeader] + Notices(runs) + [SummaryLine(summary)];
    var report := Report(results, summary, details, logs, stdout);
    if BlocksDeployment(results) then Blocked(report, BlockedMessage) else Allowed(report)
  }

  /** How `Conclude` lays out its two output channels. */
  lemma ConcludeLayout(runs: seq<PolicyRun>)
    ensures var v := Conclude(runs);
      && v.report.stdout == AllProgress(runs) + (if |Marked(v.report.results)| != 0 then [DetailsOut(v.report.details)] else [])
      && v.report.logs == [ProcessingStarted, ResultsHeader] + Notices(runs) + [SummaryLine(v.report.summary)]
  {
  }

  /** The two output channels of a finished run. Standard output holds every
      policy's progress lines, one policy after another in declaration order,
      then one details block exactly when anything is marked. The log holds the
      two headers, then one notice per inconclusive run in declaration order,
      then the summary. */
  lemma ConcludeChannels(runs: seq<PolicyRun>)
    ensures var v := Conclude(runs);
      && (forall i :: 0 <= i < |runs| ==> AllProgress(runs[..i]) + ProgressOutputs(runs[i]) <= v.report.stdout)
      && |v.report.stdout| == |AllProgress(runs)| + (if |Marked(v.report.results)| != 0 then 1 else 0)
      && (|Marked(v.report.results)| != 0 ==> v.report.stdout[|v.report.stdout| - 1] == DetailsOut(v.report.details))
    ensures var v := Conclude(runs);
      var inconclusive := Filter(runs, IsInconclusive);
      && |v.report.logs| == 3 + |inconclusive|
      && forall k :: 0 <= k < |inconclusive| ==>
           v.report.logs[2 + k] == InconclusiveNotice(inconclusive[k].result.policy.config.title)
  {
    var v := Conclude(runs);
    ConcludeLayout(runs);
    var marked := |Marked(v.report.results)| != 0;
    var tail := if marked then [DetailsOut(v.report.details)] else [];
    var out := v.report.stdout;
    assert out == AllProgress(runs) + tail;
    forall i | 0 <= i < |runs|
      ensures AllProgress(runs[..i]) + ProgressOutputs(runs[i]) <= out
    {
      ProgressPrefix(runs, i, tail);
    }
    assert marked ==> out[|out| - 1] == DetailsOut(v.report.details);
    var notices, inconclusive := Notices(runs), Filter(runs, IsInconclusive);
    NoticesInOrder(runs);
    var logs := v.report.logs;
    var head: seq<Log> := [ProcessingStarted, ResultsHeader];
    assert |head| == 2;
    assert logs == head + notices + [SummaryLine(v.report.summary)];
    Framed(head, notices, SummaryLine(v.report.summary));
    forall k | 0 <= k < |inconclusive|
      ensures logs[2 + k] == InconclusiveNotice(inconclusive[k].result.policy.config.title)
    {
      assert logs[|head| + k] == notices[k];
    }
  }

  /** Run `i`'s progress lines come right after those of the runs before it. */
  lemma ProgressPrefix(runs: seq<PolicyRun>, i: int, tail: seq<Output>)
    requires 0 <= i < |runs|
    ensures AllProgress(runs[..i]) + ProgressOutputs(runs[i]) <= AllProgress(runs) + tail
  {
    var before, after := runs[..i], runs[i..];
    assert runs == before + after;
    AllProgressAppend(before, after);
    assert after[0] == runs[i];
    var a, b, c := AllProgress(before), ProgressOutputs(runs[i]), AllProgress(after[1..]);
    assert AllProgress(after) == b + c;
    assert AllProgress(runs) + tail == a + (b + c) + tail;
    Regroup(a, b, c, tail);
    PrefixOfAppend(a + b, c + tail);
  }

  /** A sequence framed by a header and one closing element keeps the middle
      part in place. */
  lemma Framed<T>(head: seq<T>, middle: seq<T>, last: T)
    ensures |head + middle + [last]| == |head| + |middle| + 1
    ensures forall k :: 0 <= k < |middle| ==> (head + middle + [last])[|head| + k] == middle[k]
  {
  }

  /** A single policy's run: its progress lines, then the details block when
      its result is marked; an inconclusive notice when it is inconclusive. */
  lemma ConcludeSingle(run: PolicyRun)
    ensures var v := Conclude([run]);
      && v.report.results == [run.result]
      && v.report.stdout == ProgressOutputs(run) + (if IsMarked(run.result) then [DetailsOut(v.report.details)] else [])
      && v.report.logs == [ProcessingStarted, ResultsHeader]
           + (if run.inconclusive then [InconclusiveNotice(run.result.policy.config.title)] else [])
           + [SummaryLine(v.report.summary)]
  {
    var v := Conclude([run]);
    ConcludeLayout([run]);
    assert v.report.results == [run.result];
    assert AllProgress([run]) == ProgressOutputs(run) by { assert [run][1..] == []; }
    var n := if run.inconclusive then [InconclusiveNotice(run.result.policy.config.title)] else [];
    assert Notices([run]) == n + Notices([]) by { assert [run][1..] == []; }
    assert Notices([run]) == n;
    assert |Marked([run.result])| != 0 <==> IsMarked(run.result) by { FilterSingleton(run.result, IsMarked); }
  }

  /** Two runs: the first policy's progress lines, then the second's. */
  lemma ConcludePair(r1: PolicyRun, r2: PolicyRun)
    ensures var v := Conclude([r1, r2]);
      && v.report.results == [r1.result, r2.result]
      && v.report.stdout == ProgressOutputs(r1) + ProgressOutputs(r2)
           + (if |Marked(v.report.results)| != 0 then [DetailsOut(v.report.details)] else [])
      && v.report.logs == [ProcessingStarted, ResultsHeader]
           + (if r1.inconclusive then [InconclusiveNotice(r1.result.policy.config.title)] else [])
           + (if r2.inconclusive then [InconclusiveNotice(r2.result.policy.config.title)] else [])
           + [SummaryLine(v.report.summary)]
  {
    var runs := [r1, r2];
    ConcludeLayout(runs);
    assert runs[1..] == [r2] && runs[1..][1..] == [];
    assert AllProgress([r2]) == ProgressOutputs(r2);
    assert AllProgress(runs) == ProgressOutputs(r1) + ProgressOutputs(r2);
    var n1 := if r1.inconclusive then [InconclusiveNotice(r1.result.policy.config.title)] else [];
    var n2 := if r2.inconclusive then [InconclusiveNotice(r2.result.policy.config.title)] else [];
    assert Notices([r2]) == n2;
    assert Notices(runs) == n1 + n2;
    var head: seq<Log> := [ProcessingStarted, ResultsHeader];
    AppendAssociates(head, n1, n2);
  }

  /** Every configuration's module is one `require` can resolve. */
  predicate AllResolve(configs: seq<Config>, catalogue: map<string, PolicyFn>) {
    forall i :: 0 <= i < |configs| ==> ModulePath(configs[i]) in catalogue
  }

  /** Every artifact file in the listing decodes with the decoder its
      extension picks. */
  predicate AllDecode(names: seq<string>, parse: (Format, string) -> Option<JsValue>) {
    forall i :: 0 <= i < |names| && IsArtifactName(names[i]) ==> parse(FormatOf(names[i]), names[i]).Some?
  }

  /** What a finished verdict reports about these configurations: one result
      per configuration, in order, each the run of its resolved policy against
      `service`; the summary, the details and the decision to block all follow
      from those results. */
  predicate ReportsRuns(v: Verdict, configs: seq<Config>, catalogue: map<string, PolicyFn>, service: Service, invoke: Invoker)
    requires v.Finished() && AllResolve(configs, catalogue)
  {
    var results := v.report.results;
    && |results| == |configs|
    && (forall i :: 0 <= i < |configs| ==>
          results[i] == RunOne(Loaded(configs[i], catalogue[ModulePath(configs[i])]), service, invoke).result)
    && v.report.summary == Summarize(results)
    && v.report.details == Details(results)
    && (v.Blocked? <==> BlocksDeployment(results))
    && (v.Blocked? ==> v.reason == BlockedMessage)
  }

  /** Everything after normalisation, for a non-empty list of configurations:
      the first configuration whose module does not resolve aborts after the
      opening log line; otherwise the first artifact that does not decode
      aborts after its parse-failure line; otherwise every policy runs against
      the decoded artifacts and the run concludes. */
  function RunConfigured(configs: seq<Config>, env: Environment): (v: Verdict)
    ensures v.NothingConfigured? == false
    ensures (v.Aborted? && v.error.ModuleNotFound?) <==> !AllResolve(configs, env.catalogue)
    ensures !AllResolve(configs, env.catalogue) ==> exists i ::
      && 0 <= i < |configs|
      && ModulePath(configs[i]) !in env.catalogue
      && (forall j :: 0 <= j < i ==> ModulePath(configs[j]) in env.catalogue)
      && v == Aborted(ModuleNotFound(ModulePath(configs[i])), [ProcessingStarted])
    ensures (v.Aborted? && v.error.ParseError?) <==>
      AllResolve(configs, env.catalogue) && !AllDecode(env.artifactNames, env.parse)
    ensures AllResolve(configs, env.catalogue) && !AllDecode(env.artifactNames, env.parse) ==> exists i ::
      && 0 <= i < |env.artifactNames|
      && IsArtifactName(env.artifactNames[i])
      && env.parse(FormatOf(env.artifactNames[i]), env.artifactNames[i]).None?
      && v == Aborted(ParseError(env.artifactNames[i]), [ProcessingStarted, ParseFailed(env.artifactNames[i])])
    ensures v.Aborted? && v.error.ModuleNotFound? ==> v.logs == [ProcessingStarted]
    ensures v.Aborted? && v.error.ParseError? ==> v.logs == [ProcessingStarted, ParseFailed(v.error.file)]
    ensures v.Aborted? ==> v.error.ModuleNotFound? || v.error.ParseError?
    ensures v.Finished() <==> AllResolve(configs, env.catalogue) && AllDecode(env.artifactNames, env.parse)
    ensures v.Finished() ==>
              LoadAll(configs, env.catalogue).Ok? &&
              v == Conclude(RunAll(LoadAll(configs, env.catalogue).value,
                                   Service(Compile(env.artifactNames, env.parse).value, env.stage), env.invoke))
    ensures v.Finished() ==>
      && ReportsRuns(v, configs, env.catalogue, Service(Compile(env.artifactNames, env.parse).value, env.stage), env.invoke)
      && (forall i :: 0 <= i < |configs| ==> v.report.results[i].policy.config == configs[i])
      && (forall i :: 0 <= i < |configs| ==>
            (v.report.results[i].skipped <==> !StageApplies(configs[i].stage, env.stage)))
      && AllConsistent(v.report.results)
  {
    var loaded := LoadAll(configs, env.catalogue);
    if loaded.Err? then
      Aborted(loaded.error, [ProcessingStarted])
    else
      var v := RunLoaded(loaded.value, env);
      if v.Finished() then
        ConcludedRunsReport(configs, env.catalogue, loaded.value,
                            Service(Compile(env.artifactNames, env.parse).value, env.stage), env.invoke);
        v
      else
        v
  }

  /** Once every policy is loaded: the first artifact that does not decode
      aborts after its parse-failure line; otherwise the policies run against
      the decoded artifacts and the run concludes. */
  function RunLoaded(ps: seq<Loaded>, env: Environment): (v: Verdict)
    ensures !v.NothingConfigured?
    ensures v.Aborted? <==> !AllDecode(env.artifactNames, env.parse)
    ensures v.Aborted? ==> v.error.ParseError? && v.logs == [ProcessingStarted, ParseFailed(v.error.file)]
    ensures !AllDecode(env.artifactNames, env.parse) ==> exists i ::
      && 0 <= i < |env.artifactNames|
      && IsArtifactName(env.artifactNames[i])
      && env.parse(FormatOf(env.artifactNames[i]), env.artifactNames[i]).None?
      && v == Aborted(ParseError(env.artifactNames[i]), [ProcessingStarted, ParseFailed(env.artifactNames[i])])
    ensures v.Finished() ==> v == Conclude(RunAll(ps, Service(Compile(env.artifactNames, env.parse).value, env.stage), env.invoke))
  {
    var compiled := Compile(env.artifactNames, env.parse);
    if compiled.Err? then
      Aborted(compiled.error, [ProcessingStarted, ParseFailed(compiled.error.file)])
    else
      Conclude(RunAll(ps, Service(compiled.value, env.stage), env.invoke))
  }

  /** Concluding the runs of the resolved configurations reports each
      configuration's own run, in order. */
  lemma ConcludedRunsReport(configs: seq<Config>, catalogue: map<string, PolicyFn>, ps: seq<Loaded>, service: Service, invoke: Invoker)
    requires AllResolve(configs, catalogue)
    requires |ps| == |configs|
    requires forall i :: 0 <= i < |configs| ==> ps[i] == Loaded(configs[i], catalogue[ModulePath(configs[i])])
    ensures var v := Conclude(RunAll(ps, service, invoke));
      && ReportsRuns(v, configs, catalogue, service, invoke)
      && (forall i :: 0 <= i < |configs| ==> v.report.results[i].policy.config == configs[i])
      && (forall i :: 0 <= i < |configs| ==>
            (v.report.results[i].skipped <==> !StageApplies(configs[i].stage, service.stage)))
      && AllConsistent(v.report.results)
  {
    var runs := RunAll(ps, service, invoke);
    var results := Conclude(runs).report.results;
    assert forall i :: 0 <= i < |configs| ==> results[i] == runs[i].result;
  }

  /** `runPolicies`: nothing configured returns at once without a word; the
      first bad entry throws before anything is logged; otherwise the run is
      `RunConfigured`'s over the normalised configurations. */
  function RunPolicies(env: Environment): (v: Verdict)
    ensures v.NothingConfigured? <==>
      env.declared.Falsy? || (env.declared.Entries? && |env.declared.items| == 0)
    ensures env.declared.NotAList? ==> v.Aborted? && v.error.TypeError? && v.logs == []
    ensures env.declared.Entries? && (exists i :: 0 <= i < |env.declared.items| && !Truthy(env.declared.items[i].title)) ==>
      v.Aborted? && v.logs == []
    ensures env.declared.Entries? && NormaliseAll(env.declared, env.relativize).Err? ==>
      var items := env.declared.items;
      exists i ::
        && 0 <= i < |items|
        && Normalise(items[i], env.relativize).Err?
        && (forall j :: 0 <= j < i ==> Normalise(items[j], env.relativize).Ok?)
        && v == Aborted(Normalise(items[i], env.relativize).error, [])
    ensures env.declared.Entries? && |env.declared.items| > 0 && !Truthy(env.declared.items[0].title) ==>
      v == Aborted(ReferenceError(UnboundTitleName), [])
    ensures v.Aborted? && v.error.ModuleNotFound? ==> v.logs == [ProcessingStarted]
    ensures v.Aborted? && v.error.ParseError? ==> v.logs == [ProcessingStarted, ParseFailed(v.error.file)]
    ensures env.declared.Entries? && |env.declared.items| > 0 && NormaliseAll(env.declared, env.relativize).Ok? ==>
      v == RunConfigured(NormaliseAll(env.declared, env.relativize).value, env)
    ensures v.Finished() ==> env.declared.Entries? && ReportsEntries(v, env.declared.items, env)
  {
    var normalised := NormaliseAll(env.declared, env.relativize);
    if normalised.Err? then
      RunRejected(env)
    else if |normalised.value| == 0 then
      NothingConfigured
    else
      RunEntries(env.declared.items, normalised.value, env)
  }

  /** The run when some entry throws: the first bad entry's exception
      escapes before anything is logged. */
  function RunRejected(env: Environment): (v: Verdict)
    requires NormaliseAll(env.declared, env.relativize).Err?
    ensures v == Aborted(NormaliseAll(env.declared, env.relativize).error, [])
    ensures v.error.TypeError? || v.error.ReferenceError?
    ensures env.declared.Entries? ==>
      var items := env.declared.items;
      exists i ::
        && 0 <= i < |items|
        && Normalise(items[i], env.relativize).Err?
        && (forall j :: 0 <= j < i ==> Normalise(items[j], env.relativize).Ok?)
        && v == Aborted(Normalise(items[i], env.relativize).error, [])
    ensures env.declared.Entries? && |env.declared.items| > 0 && !Truthy(env.declared.items[0].title) ==>
      v == Aborted(ReferenceError(UnboundTitleName), [])
  {
    FirstTitleMissingThrows(env.declared, env.relativize);
    Aborted(NormaliseAll(env.declared, env.relativize).error, [])
  }

  /** The run once every entry has normalised: the configurations run in
      entry order, so a finished run reports one result per entry. */
  function RunEntries(items: seq<RawPolicy>, configs: seq<Config>, env: Environment): (v: Verdict)
    requires |configs| == |items|
    requires forall i :: 0 <= i < |items| ==> Normalise(items[i], env.relativize) == Ok(configs[i])
    ensures v == RunConfigured(configs, env)
    ensures v.Aborted? && v.error.ModuleNotFound? ==> v.logs == [ProcessingStarted]
    ensures v.Aborted? && v.error.ParseError? ==> v.logs == [ProcessingStarted, ParseFailed(v.error.file)]
    ensures v.Finished() ==> ReportsEntries(v, items, env)
  {
    var v := RunConfigured(configs, env);
    if v.Finished() then
      EntriesReported(items, configs, v.report.results, env);
      v
    else
      v
  }

  /** What a finished run reports about the declared entries: one result per
      entry, in order, carrying that entry's normalised configuration, each
      skipped exactly when its stage does not apply, and all consistent. */
  predicate ReportsEntries(v: Verdict, items: seq<RawPolicy>, env: Environment)
    requires v.Finished()
  {
    var results := v.report.results;
    && |results| == |items|
    && (forall i :: 0 <= i < |items| ==> Normalise(items[i], env.relativize) == Ok(results[i].policy.config))
    && (forall i :: 0 <= i < |results| ==>
          (results[i].skipped <==> !StageApplies(results[i].policy.config.stage, env.stage)))
    && AllConsistent(results)
  }

  /** Results run for the normalised configurations report the entries. */
  lemma EntriesReported(items: seq<RawPolicy>, configs: seq<Config>, results: seq<PolicyResult>, env: Environment)
    requires |configs| == |items| && |results| == |configs|
    requires forall i :: 0 <= i < |items| ==> Normalise(items[i], env.relativize) == Ok(configs[i])
    requires forall i :: 0 <= i < |configs| ==> results[i].policy.config == configs[i]
    requires forall i :: 0 <= i < |configs| ==> (results[i].skipped <==> !StageApplies(configs[i].stage, env.stage))
    requires AllConsistent(results)
    ensures forall i :: 0 <= i < |items| ==> Normalise(items[i], env.relativize) == Ok(results[i].policy.config)
    ensures forall i :: 0 <= i < |results| ==> (results[i].skipped <==> !StageApplies(results[i].policy.config.stage, env.stage))
  {
    SkipsFollowConfigs(results, configs, env.stage);
  }

  /** Results that carry the configurations they were run for are skipped
      by their own stage settings. */
  lemma SkipsFollowConfigs(results: seq<PolicyResult>, configs: seq<Config>, current: JsValue)
    requires |results| == |configs|
    requires forall i :: 0 <= i < |configs| ==> results[i].policy.config == configs[i]
    requires forall i :: 0 <= i < |configs| ==> (results[i].skipped <==> !StageApplies(configs[i].stage, current))
    ensures forall i :: 0 <= i < |results| ==> (results[i].skipped <==> !StageApplies(results[i].policy.config.stage, current))
  {
  }

  /** `runPolicies` with the corrected title fallback: a missing title no
      longer aborts the run, and a configuration the as-written code accepts
      runs exactly as before. */
  function RunPoliciesIntended(env: Environment): (v: Verdict)
    ensures !(v.Aborted? && v.error.ReferenceError?)
    ensures env.declared.Entries? && |env.declared.items| > 0
      && (forall i :: 0 <= i < |env.declared.items| && Truthy(env.declared.items[i].path) ==> env.declared.items[i].path.Str?)
      ==> !v.NothingConfigured? && (v.Aborted? ==> v.logs != [])
    ensures v.Finished() ==> forall i :: 0 <= i < |v.report.results| ==> Truthy(v.report.results[i].policy.config.title)
    ensures NormaliseAll(env.declared, env.relativize).Ok? ==> v == RunPolicies(env)
    ensures NormaliseAllIntended(env.declared, env.relativize).Err? ==> v.Aborted? && v.error.TypeError? && v.logs == []
    ensures NormaliseAllIntended(env.declared, env.relativize).Ok? && |NormaliseAllIntended(env.declared, env.relativize).value| > 0 ==>
      v == RunConfigured(NormaliseAllIntended(env.declared, env.relativize).value, env)
  {
    NormaliseIntendedAgrees(env.declared, env.relativize);
    var normalised := NormaliseAllIntended(env.declared, env.relativize);
    if normalised.Err? then
      Aborted(normalised.error, [])
    else if |normalised.value| == 0 then
      NothingConfigured
    else
      RunCorrected(normalised.value, env)
  }

  /** The run of configurations that all carry a title, as the corrected
      fallback guarantees: it never throws a reference error, and when it
      stops early it has logged something. */
  function RunCorrected(configs: seq<Config>, env: Environment): (v: Verdict)
    requires forall i :: 0 <= i < |configs| ==> Truthy(configs[i].title)
    ensures v == RunConfigured(configs, env)
    ensures !(v.Aborted? && v.error.ReferenceError?)
    ensures !v.NothingConfigured? && (v.Aborted? ==> v.logs != [])
    ensures v.Finished() ==> forall i :: 0 <= i < |v.report.results| ==> Truthy(v.report.results[i].policy.config.title)
  {
    RunConfigured(configs, env)
  }
}

=== FILE: export.dfy ===
/** The `safeguards export` command (index.js:57-152): turn the safeguard
    policies attached to dashboard deployment profiles into `custom.safeguards`
    entries. The two platform requests are inputs (`None` when the request
    fails); the YAML rendering and the log lines are not modelled. */
module Export {
  import opened Wrappers
  import opened JsValues
  import opened JsObjects
  import opened PolicyConfig

  datatype ExportRequest = ExportRequest(
    optionOrg: JsValue,
    serviceOrg: JsValue,
    optionApp: JsValue,
    serviceApp: JsValue,
    accessKey: JsValue)   // the SERVERLESS_ACCESS_KEY environment variable

  datatype ExportError =
    | MissingOrg
    | MissingApp
    | MissingAccessKey
    | AppLookupFailed        // `getApp` rejected
    | ProfilesLookupFailed   // `getDeployProfiles` threw

  /** `app.deploymentProfiles`: the default profile uid and a stage -> uid object. */
  datatype DeploymentProfiles = DeploymentProfiles(defaultProfile: JsValue, stages: Entries)

  datatype DashboardPolicy = DashboardPolicy(
    title: JsValue,
    description: JsValue,
    safeguardName: JsValue,
    enforcementLevel: JsValue,
    safeguardConfig: JsValue)

  datatype Profile = Profile(uid: JsValue, policies: seq<DashboardPolicy>)

  /** The document rendered as YAML. */
  datatype ExportContent = ExportContent(plugins: seq<string>, safeguards: seq<RawPolicy>)

  const DefaultStage := "default"

  /** The plugin entry exactly as written, trailing semicolon included. */
  const PluginEntry := "@serverless/safeguards-plugin;"

  /** `--org` wins over the service's `org`. */
  function EffectiveOrg(req: ExportRequest): (org: JsValue)
    ensures Truthy(req.optionOrg) ==> org == req.optionOrg
    ensures !Truthy(req.optionOrg) ==> org == req.serviceOrg
  {
    Or(req.optionOrg, req.serviceOrg)
  }

  /** `--app` wins over the service's `app`. */
  function EffectiveApp(req: ExportRequest): (app: JsValue)
    ensures Truthy(req.optionApp) ==> app == req.optionApp
    ensures !Truthy(req.optionApp) ==> app == req.serviceApp
  {
    Or(req.optionApp, req.serviceApp)
  }

  /** The profile uid stage `k` is served by, read off the two parts directly. */
  function MappedProfile(dp: DeploymentProfiles, k: string): Option<JsValue> {
    if HasKey(dp.stages, k) then Some(LastValue(dp.stages, k))
    else if k == DefaultStage then Some(dp.defaultProfile)
    else None
  }

  /** `{ default: profiles.default, ...profiles.stages }`: `default` comes
      first and is overridden by a stage of that name; every stage keeps the
      last uid given to it; the other stages follow in the order in which
      they first appear in `stages`. */
  function StageMapping(dp: DeploymentProfiles): (m: Entries)
    ensures |m| > 0 && m[0].0 == DefaultStage
    ensures UniqueKeys(m)
    ensures forall k :: HasKey(m, k) <==> k == DefaultStage || HasKey(dp.stages, k)
    ensures forall k :: Get(m, k) == MappedProfile(dp, k)
    ensures forall k1, k2 ::
      k1 != DefaultStage && k2 != DefaultStage && HasKey(dp.stages, k1) && HasKey(dp.stages, k2) ==>
        (KeyPosition(m, k1).value < KeyPosition(m, k2).value <==>
         KeyPosition(dp.stages, k1).value < KeyPosition(dp.stages, k2).value)
  {
    var head := [(DefaultStage, dp.defaultProfile)];
    var m := Spread(head, dp.stages);
    SpreadKeepsShape(head, dp.stages);
    SpreadPositions(head, dp.stages);
    assert forall k :: HasKey(head, k) <==> k == DefaultStage by {
      forall k | k == DefaultStage ensures HasKey(head, k) { assert head[0].0 == k; }
    }
    forall k ensures Get(m, k) == MappedProfile(dp, k) {
      SpreadGet([(DefaultStage, dp.defaultProfile)], dp.stages, k);
    }
    m
  }

  /** The stage a profile serves: the first key, in `Object.keys` order,
      whose uid is the profile's. */
  function StageOf(profile: Profile, mapping: Entries): (st: Option<string>)
    ensures st.None? <==> forall j :: 0 <= j < |mapping| ==> !StrictEquals(mapping[j].1, profile.uid)
    ensures st.Some? ==> exists i ::
      && 0 <= i < |mapping|
      && mapping[i].0 == st.value
      && StrictEquals(mapping[i].1, profile.uid)
      && forall j :: 0 <= j < |mapping| && StrictEquals(mapping[j].1, profile.uid) ==> !EntryPrecedes(mapping, j, i)
  {
    match FindKeyPosition(mapping, profile.uid)
    case None => None
    case Some(i) => Some(mapping[i].0)
  }

  /** Two plain stages served by the same profile: the stage declared later
      is never the one the profile is exported for, because the earlier one
      is enumerated first. */
  lemma EarlierStageServes(dp: DeploymentProfiles, a: string, b: string, uid: JsValue)
    requires a != DefaultStage && b != DefaultStage && !IsArrayIndex(a) && !IsArrayIndex(b)
    requires HasKey(dp.stages, a) && HasKey(dp.stages, b)
    requires KeyPosition(dp.stages, a).value < KeyPosition(dp.stages, b).value
    requires StrictEquals(LastValue(dp.stages, a), uid)
    ensures StageOf(Profile(uid, []), StageMapping(dp)) != Some(b)
  {
    var m := StageMapping(dp);
    var st := StageOf(Profile(uid, []), m);
    var i, j := KeyPosition(m, a).value, KeyPosition(m, b).value;
    assert Get(m, a) == Some(LastValue(dp.stages, a));
    assert StrictEquals(m[i].1, uid);
    assert EntryPrecedes(m, i, j);
    if st.Some? {
      var p :| 0 <= p < |m| && m[p].0 == st.value && StrictEquals(m[p].1, uid)
        && forall q :: 0 <= q < |m| && StrictEquals(m[q].1, uid) ==> !EntryPrecedes(m, q, p);
      assert !EntryPrecedes(m, i, p);
      assert m[p].0 != b;
    }
  }

  /** One dashboard policy as a `custom.safeguards` entry for `stage`. */
  function Setting(p: DashboardPolicy, stage: string): (s: RawPolicy)
    ensures s.title == p.title && s.description == p.description && s.safeguard == p.safeguardName
    ensures s.enforcementLevel == p.enforcementLevel && s.config == p.safeguardConfig
    ensures s.path == Undefined
    ensures stage == DefaultStage ==> s.stage == Undefined
    ensures stage != DefaultStage ==> s.stage == Str(stage)
  {
    RawPolicy(
      safeguard := p.safeguardName,
      config := p.safeguardConfig,
      enforcementLevel := p.enforcementLevel,
      title := p.title,
      description := p.description,
      stage := if stage != DefaultStage then Str(stage) else Undefined,
      path := Undefined)
  }

  /** The stage a profile's policies are exported under, if it is exported. */
  function ExportedStage(profile: Profile, mapping: Entries): (st: Option<string>)
    ensures st.Some? ==> st.value != "" && StageOf(profile, mapping) == st
    ensures st.None? ==> StageOf(profile, mapping).None? || StageOf(profile, mapping) == Some("")
  {
    var found := StageOf(profile, mapping);
    if found.Some? && Truthy(Str(found.value)) then found else None
  }

  /** The entries one profile contributes: one per policy, in order, when the
      profile serves a stage; none otherwise. */
  function ProfileSettings(profile: Profile, mapping: Entries): (r: seq<RawPolicy>)
    ensures ExportedStage(profile, mapping).None? ==> r == []
    ensures ExportedStage(profile, mapping).Some? ==>
      && |r| == |profile.policies|
      && forall j :: 0 <= j < |r| ==> r[j] == Setting(profile.policies[j], ExportedStage(profile, mapping).value)
  {
    match ExportedStage(profile, mapping)
    case None => []
    case Some(st) => seq(|profile.policies|, j requires 0 <= j < |profile.policies| => Setting(profile.policies[j], st))
  }

  /** Every profile's entries, in profile order. */
  function ExportSettings(profiles: seq<Profile>, mapping: Entries): seq<RawPolicy> {
    if |profiles| == 0 then [] else ProfileSettings(profiles[0], mapping) + ExportSettings(profiles[1..], mapping)
  }

  /** The number of policies on the profiles that are exported. */
  function ExportedPolicyCount(profiles: seq<Profile>, mapping: Entries): nat {
    if |profiles| == 0 then 0
    else (if ExportedStage(profiles[0], mapping).Some? then |profiles[0].policies| else 0)
         + ExportedPolicyCount(profiles[1..], mapping)
  }

  function Export(req: ExportRequest, app: Option<DeploymentProfiles>, profiles: Option<seq<Profile>>): (r: Result<ExportContent, ExportError>)
    ensures r == Err(MissingOrg) <==> !Truthy(EffectiveOrg(req))
    ensures r == Err(MissingApp) <==> Truthy(EffectiveOrg(req)) && !Truthy(EffectiveApp(req))
    ensures r == Err(MissingAccessKey) <==>
      Truthy(EffectiveOrg(req)) && Truthy(EffectiveApp(req)) && !Truthy(req.accessKey)
    ensures r.Ok? ==> app.Some? && profiles.Some?
    ensures Truthy(EffectiveOrg(req)) && Truthy(EffectiveApp(req)) && Truthy(req.accessKey) ==>
      && (r.Ok? <==> app.Some? && profiles.Some?)
      && (app.None? ==> r == Err(AppLookupFailed))
      && (app.Some? && profiles.None? ==> r == Err(ProfilesLookupFailed))
    ensures r.Ok? ==> r.value.plugins == [PluginEntry]
    ensures r.Ok? ==> r.value.safeguards == ExportSettings(profiles.value, StageMapping(app.value))
  {
    if !Truthy(EffectiveOrg(req)) then Err(MissingOrg)
    else if !Truthy(EffectiveApp(req)) then Err(MissingApp)
    else if !Truthy(req.accessKey) then Err(MissingAccessKey)
    else match app
      case None => Err(AppLookupFailed)
      case Some(dp) =>
        match profiles
        case None => Err(ProfilesLookupFailed)
        case Some(ps) => Ok(ExportContent([PluginEntry], ExportSettings(ps, StageMapping(dp))))
  }

  /** A missing org, app or access key stops the export before either
      platform request: the outcome does not depend on their answers. */
  lemma MisconfiguredExportMakesNoRequest(
    req: ExportRequest,
    app1: Option<DeploymentProfiles>, app2: Option<DeploymentProfiles>,
    profiles1: Option<seq<Profile>>, profiles2: Option<seq<Profile>>)
    requires !Truthy(EffectiveOrg(req)) || !Truthy(EffectiveApp(req)) || !Truthy(req.accessKey)
    ensures Export(req, app1, profiles1) == Export(req, app2, profiles2)
    ensures Export(req, app1, profiles1).Err?
  {
  }

  /** Exporting distributes over the profile list: the output follows
      profile order, then policy order within a profile. */
  lemma {:induction false} ExportSettingsAppend(ps1: seq<Profile>, ps2: seq<Profile>, mapping: Entries)
    ensures ExportSettings(ps1 + ps2, mapping) == ExportSettings(ps1, mapping) + ExportSettings(ps2, mapping)
  {
    if |ps1| == 0 {
      assert ps1 + ps2 == ps2;
    } else {
      assert (ps1 + ps2)[0] == ps1[0];
      assert (ps1 + ps2)[1..] == ps1[1..] + ps2;
      ExportSettingsAppend(ps1[1..], ps2, mapping);
      var head := ProfileSettings(ps1[0], mapping);
      calc {
        ExportSettings(ps1 + ps2, mapping);
        head + ExportSettings(ps1[1..] + ps2, mapping);
        head + (ExportSettings(ps1[1..], mapping) + ExportSettings(ps2, mapping));
        (head + ExportSettings(ps1[1..], mapping)) + ExportSettings(ps2, mapping);
      }
    }
  }

  /** The output holds exactly one entry per policy of an exported profile, and
      every entry has no `path` and either no `stage` or the name of a stage
      other than `default`. */
  lemma {:induction false} ExportSettingsShape(profiles: seq<Profile>, mapping: Entries)
    ensures |ExportSettings(profiles, mapping)| == ExportedPolicyCount(profiles, mapping)
    ensures forall s :: s in ExportSettings(profiles, mapping) ==>
      && s.path == Undefined
      && (s.stage == Undefined || (s.stage.Str? && s.stage.s != "" && s.stage.s != DefaultStage))
  {
    if |profiles| > 0 {
      ExportSettingsShape(profiles[1..], mapping);
    }
  }
}

=== FILE: js_objects.dfy ===
/** Plain JavaScript objects as ordered entry lists: property lookup, property
    assignment and spread (`{ a: x, ...o }`), and the order in which
    `Object.keys` enumerates properties. Array-index keys ("0", "17") come
    first in ascending numeric order; every other key follows in insertion
    order. */
module JsObjects {
  import opened Wrappers
  import opened JsValues

  type Entries = seq<(string, JsValue)>

  predicate HasKey(e: Entries, k: string) {
    exists i :: 0 <= i < |e| && e[i].0 == k
  }

  predicate UniqueKeys(e: Entries) {
    forall i, j :: 0 <= i < j < |e| ==> e[i].0 != e[j].0
  }

  /** The position of the first entry for key `k` at or after `from`. */
  function KeyPositionFrom(e: Entries, k: string, from: nat): (r: Option<nat>)
    requires from <= |e|
    ensures r.None? <==> forall j :: from <= j < |e| ==> e[j].0 != k
    ensures r.Some? ==> from <= r.value < |e| && e[r.value].0 == k && forall j :: from <= j < r.value ==> e[j].0 != k
    decreases |e| - from
  {
    if from == |e| then None
    else if e[from].0 == k then Some(from)
    else KeyPositionFrom(e, k, from + 1)
  }

  /** The position of the entry for key `k`, the first if there were several. */
  function KeyPosition(e: Entries, k: string): (r: Option<nat>)
    ensures r.None? <==> !HasKey(e, k)
    ensures r.Some? ==> r.value < |e| && e[r.value].0 == k && forall j :: 0 <= j < r.value ==> e[j].0 != k
  {
    KeyPositionFrom(e, k, 0)
  }

  /** `o[k]`. */
  function Get(e: Entries, k: string): (r: Option<JsValue>)
    ensures r.Some? <==> HasKey(e, k)
    ensures r.Some? ==> exists i :: 0 <= i < |e| && e[i] == (k, r.value)
  {
    match KeyPosition(e, k)
    case None => None
    case Some(i) => Some(e[i].1)
  }

  /** `o[k] = v`: an existing key keeps its position and takes the new value;
      a new key is appended. */
  function Assign(e: Entries, k: string, v: JsValue): (r: Entries)
    ensures |r| == if HasKey(e, k) then |e| else |e| + 1
    ensures forall i :: 0 <= i < |e| ==> r[i].0 == e[i].0
    ensures !HasKey(e, k) ==> r[|e|] == (k, v)
    ensures UniqueKeys(e) ==> UniqueKeys(r)
    ensures Get(r, k) == Some(v)
    ensures forall k' :: k' != k ==> Get(r, k') == Get(e, k')
    ensures forall k' :: HasKey(r, k') <==> HasKey(e, k') || k' == k
    ensures forall k' :: HasKey(e, k') ==> KeyPosition(r, k') == KeyPosition(e, k')
    ensures !HasKey(e, k) ==> KeyPosition(r, k) == Some(|e|)
  {
    match KeyPosition(e, k)
    case Some(i) =>
      var r := e[i := (k, v)];
      assert forall k' :: KeyPosition(r, k') == KeyPosition(e, k') by {
        forall k' ensures KeyPosition(r, k') == KeyPosition(e, k') {
          var a, b := KeyPosition(r, k'), KeyPosition(e, k');
          assert HasKey(r, k') <==> HasKey(e, k') by {
            if HasKey(r, k') { var j :| 0 <= j < |r| && r[j].0 == k'; assert e[j].0 == k'; }
            if HasKey(e, k') { var j :| 0 <= j < |e| && e[j].0 == k'; assert r[j].0 == k'; }
          }
          if a.Some? && b.Some? {
            assert a.value < |e| && e[a.value].0 == k';
            assert r[b.value].0 == k';
          }
        }
      }
      r
    case None =>
      var r := e + [(k, v)];
      assert forall k' :: k' != k ==> KeyPosition(r, k') == KeyPosition(e, k') by {
        forall k' | k' != k ensures KeyPosition(r, k') == KeyPosition(e, k') {
          var a, b := KeyPosition(r, k'), KeyPosition(e, k');
          assert HasKey(r, k') <==> HasKey(e, k') by {
            if HasKey(r, k') { var j :| 0 <= j < |r| && r[j].0 == k'; assert j < |e| && e[j].0 == k'; }
            if HasKey(e, k') { var j :| 0 <= j < |e| && e[j].0 == k'; assert r[j].0 == k'; }
          }
          if a.Some? && b.Some? {
            assert a.value < |e| && e[a.value].0 == k';
            assert r[b.value].0 == k';
          }
        }
      }
      assert r[|e|].0 == k;
      assert forall j :: 0 <= j < |e| ==> r[j].0 != k;
      assert KeyPosition(r, k) == Some(|e|);
      r
  }

  /** The last value `more` gives key `k`. */
  function LastValue(more: Entries, k: string): JsValue
    requires HasKey(more, k)
  {
    var last := more[|more| - 1];
    if last.0 == k then last.1
    else
      assert HasKey(more[..|more| - 1], k) by {
        var i :| 0 <= i < |more| && more[i].0 == k;
        assert more[..|more| - 1][i].0 == k;
      }
      LastValue(more[..|more| - 1], k)
  }

  /** `{ ...e, ...more }` with `e` already built: each entry of `more` assigned
      in turn. */
  function Spread(e: Entries, more: Entries): (r: Entries)
    decreases |more|
  {
    if |more| == 0 then e
    else Assign(Spread(e, more[..|more| - 1]), more[|more| - 1].0, more[|more| - 1].1)
  }

  /** A spread keeps the original entries where they were and keeps keys unique. */
  lemma {:induction false} SpreadKeepsShape(e: Entries, more: Entries)
    ensures |e| <= |Spread(e, more)|
    ensures forall i :: 0 <= i < |e| ==> Spread(e, more)[i].0 == e[i].0
    ensures UniqueKeys(e) ==> UniqueKeys(Spread(e, more))
    decreases |more|
  {
    if |more| > 0 {
      SpreadKeepsShape(e, more[..|more| - 1]);
    }
  }

  lemma HasKeySnoc(more: Entries, k: string)
    requires |more| > 0
    ensures HasKey(more, k) <==> HasKey(more[..|more| - 1], k) || more[|more| - 1].0 == k
  {
    var prefix := more[..|more| - 1];
    if HasKey(more, k) && more[|more| - 1].0 != k {
      var i :| 0 <= i < |more| && more[i].0 == k;
      assert prefix[i].0 == k;
    }
    if HasKey(prefix, k) {
      var i :| 0 <= i < |prefix| && prefix[i].0 == k;
      assert more[i].0 == k;
    }
  }

  /** After a spread, a key of `more` holds the last value `more` gives it and
      every other key keeps its value. */
  lemma {:induction false} SpreadGet(e: Entries, more: Entries, k: string)
    ensures Get(Spread(e, more), k) == if HasKey(more, k) then Some(LastValue(more, k)) else Get(e, k)
    decreases |more|
  {
    if |more| > 0 {
      var prefix := more[..|more| - 1];
      SpreadGet(e, prefix, k);
      HasKeySnoc(more, k);
    }
  }

  /** Appending an entry leaves the first position of every key already
      present where it was, and gives a new key the last position. */
  lemma KeyPositionSnoc(more: Entries, k: string)
    requires |more| > 0
    ensures HasKey(more[..|more| - 1], k) ==> KeyPosition(more, k) == KeyPosition(more[..|more| - 1], k)
    ensures !HasKey(more[..|more| - 1], k) && more[|more| - 1].0 == k ==> KeyPosition(more, k) == Some(|more| - 1)
  {
    var prefix := more[..|more| - 1];
    HasKeySnoc(more, k);
    var a, b := KeyPosition(more, k), KeyPosition(prefix, k);
    if b.Some? {
      assert more[b.value].0 == k;
      assert a.value <= b.value;
      assert prefix[a.value].0 == k;
    } else if more[|more| - 1].0 == k {
      assert forall j :: 0 <= j < |prefix| ==> more[j].0 == prefix[j].0;
    }
  }

  /** A spread keeps every key of `e` at its position and appends the keys
      only `more` has after them, in the order of their first occurrence in
      `more`. */
  lemma {:induction false} SpreadPositions(e: Entries, more: Entries)
    ensures forall k :: HasKey(Spread(e, more), k) <==> HasKey(e, k) || HasKey(more, k)
    ensures forall k :: HasKey(e, k) ==> KeyPosition(Spread(e, more), k) == KeyPosition(e, k)
    ensures forall k :: !HasKey(e, k) && HasKey(more, k) ==> |e| <= KeyPosition(Spread(e, more), k).value
    ensures forall k1, k2 ::
      !HasKey(e, k1) && !HasKey(e, k2) && HasKey(more, k1) && HasKey(more, k2) ==>
        (KeyPosition(Spread(e, more), k1).value < KeyPosition(Spread(e, more), k2).value <==>
         KeyPosition(more, k1).value < KeyPosition(more, k2).value)
    decreases |more|
  {
    if |more| > 0 {
      var prefix := more[..|more| - 1];
      var (k, v) := more[|more| - 1];
      var before := Spread(e, prefix);
      var after := Spread(e, more);
      SpreadPositions(e, prefix);
      SpreadKeepsShape(e, prefix);
      assert after == Assign(before, k, v);
      forall k' ensures HasKey(after, k') <==> HasKey(e, k') || HasKey(more, k') {
        HasKeySnoc(more, k');
      }
      forall k' | HasKey(e, k') ensures KeyPosition(after, k') == KeyPosition(e, k') {
        assert HasKey(before, k');
      }
      forall k' | !HasKey(e, k') && HasKey(more, k') ensures |e| <= KeyPosition(after, k').value {
        HasKeySnoc(more, k');
        if HasKey(prefix, k') {
          assert HasKey(before, k');
        } else {
          assert k' == k && !HasKey(before, k);
        }
      }
      forall k1, k2 | !HasKey(e, k1) && !HasKey(e, k2) && HasKey(more, k1) && HasKey(more, k2)
        ensures KeyPosition(after, k1).value < KeyPosition(after, k2).value <==>
                KeyPosition(more, k1).value < KeyPosition(more, k2).value
      {
        HasKeySnoc(more, k1);
        HasKeySnoc(more, k2);
        KeyPositionSnoc(more, k1);
        KeyPositionSnoc(more, k2);
        if HasKey(prefix, k1) && HasKey(prefix, k2) {
          assert HasKey(before, k1) && HasKey(before, k2);
        } else if HasKey(prefix, k1) {
          // k2 is the appended key: it comes last on both sides.
          assert k2 == k && !HasKey(before, k);
          assert HasKey(before, k1);
        } else if HasKey(prefix, k2) {
          assert k1 == k && !HasKey(before, k);
          assert HasKey(before, k2);
        }
      }
    }
  }

  predicate IsDigit(c: char) {
    '0' <= c <= '9'
  }

  predicate AllDigits(s: string) {
    forall i :: 0 <= i < |s| ==> IsDigit(s[i])
  }

  /** The number a string of decimal digits denotes. */
  function DigitsValue(s: string): nat
    requires AllDigits(s)
  {
    if |s| == 0 then 0 else 10 * DigitsValue(s[..|s| - 1]) + (s[|s| - 1] as int - '0' as int)
  }

  /** A canonical decimal numeral below 2^32 - 1: a key `Object.keys` lists
      before all others. */
  predicate IsArrayIndex(k: string) {
    && |k| > 0
    && AllDigits(k)
    && (k[0] != '0' || |k| == 1)
    && DigitsValue(k) < 0xFFFF_FFFF
  }

  /** `Object.keys` lists entry `i` before entry `j`. */
  predicate EntryPrecedes(e: Entries, i: nat, j: nat)
    requires i < |e| && j < |e|
  {
    var a, b := e[i].0, e[j].0;
    if IsArrayIndex(a) && IsArrayIndex(b) then DigitsValue(a) < DigitsValue(b)
    else IsArrayIndex(a) || (!IsArrayIndex(b) && i < j)
  }

  predicate Matches(e: Entries, i: nat, x: JsValue)
    requires i < |e|
  {
    StrictEquals(e[i].1, x)
  }

  /** The matching array-index entry with the least numeric key, from position `k` on. */
  function MinIndexFrom(e: Entries, x: JsValue, k: nat): (r: Option<nat>)
    requires k <= |e|
    ensures r.Some? ==> k <= r.value < |e| && Matches(e, r.value, x) && IsArrayIndex(e[r.value].0)
    ensures r.Some? ==> forall j :: k <= j < |e| && Matches(e, j, x) && IsArrayIndex(e[j].0) ==>
      DigitsValue(e[r.value].0) <= DigitsValue(e[j].0)
    ensures r.None? ==> forall j :: k <= j < |e| ==> !(Matches(e, j, x) && IsArrayIndex(e[j].0))
    decreases |e| - k
  {
    if k == |e| then None
    else
      var rest := MinIndexFrom(e, x, k + 1);
      if Matches(e, k, x) && IsArrayIndex(e[k].0) && (rest.None? || DigitsValue(e[k].0) <= DigitsValue(e[rest.value].0))
      then Some(k)
      else rest
  }

  /** The first matching entry whose key is not an array index, from position `k` on. */
  function FirstPlainFrom(e: Entries, x: JsValue, k: nat): (r: Option<nat>)
    requires k <= |e|
    ensures r.Some? ==> k <= r.value < |e| && Matches(e, r.value, x) && !IsArrayIndex(e[r.value].0)
    ensures r.Some? ==> forall j :: k <= j < r.value ==> !(Matches(e, j, x) && !IsArrayIndex(e[j].0))
    ensures r.None? ==> forall j :: k <= j < |e| ==> !(Matches(e, j, x) && !IsArrayIndex(e[j].0))
    decreases |e| - k
  {
    if k == |e| then None
    else if Matches(e, k, x) && !IsArrayIndex(e[k].0) then Some(k)
    else FirstPlainFrom(e, x, k + 1)
  }

  /** `Object.keys(o).find(k => o[k] === x)`, as a position: the matching entry
      that `Object.keys` enumerates first. */
  function FindKeyPosition(e: Entries, x: JsValue): (r: Option<nat>)
    ensures r.None? <==> forall j :: 0 <= j < |e| ==> !Matches(e, j, x)
    ensures r.Some? ==> r.value < |e| && Matches(e, r.value, x)
    ensures r.Some? ==> forall j :: 0 <= j < |e| && Matches(e, j, x) ==> !EntryPrecedes(e, j, r.value)
  {
    var byIndex := MinIndexFrom(e, x, 0);
    if byIndex.Some? then byIndex else FirstPlainFrom(e, x, 0)
  }

  /** `Object.keys(o).find(k => o[k] === x)`. */
  function FindKey(e: Entries, x: JsValue): (r: Option<string>)
    ensures r.None? <==> forall j :: 0 <= j < |e| ==> !StrictEquals(e[j].1, x)
    ensures r.Some? ==> exists i :: 0 <= i < |e| && e[i].0 == r.value && StrictEquals(e[i].1, x)
  {
    match FindKeyPosition(e, x)
    case None => None
    case Some(i) => Some(e[i].0)
  }

  /** An array-index key is found before a plain key bound to the same value,
      even when it was inserted later. */
  lemma IndexKeysEnumeratedFirst()
    ensures FindKey([("default", Str("p1")), ("7", Str("p1"))], Str("p1")) == Some("7")
  {
    var e := [("default", Str("p1")), ("7", Str("p1"))];
    assert AllDigits("7") && DigitsValue("7") == 7;
    assert IsArrayIndex("7");
    assert !IsArrayIndex("default") by { assert !IsDigit("default"[0]); }
    assert MinIndexFrom(e, Str("p1"), 2) == None;
    assert MinIndexFrom(e, Str("p1"), 1) == Some(1);
  }
}

=== FILE: js_values.dfy ===
/** The fragment of JavaScript's value semantics the engine depends on:
    truthiness (`x || y`, `if (x)`), strict equality, `Array.prototype.includes`,
    template-literal stringification, and the exceptions the core can raise. */
module JsValues {

  /** A JavaScript value. Arrays and plain objects carry an identity `ref`:
      `===` compares them by identity, never by contents. Numbers are integers
      (no NaN, no fractions). */
  datatype JsValue =
    | Undefined
    | Null
    | Bool(b: bool)
    | Num(n: int)
    | Str(s: string)
    | Arr(ref: nat, elems: seq<JsValue>)
    | Obj(ref: nat)

  /** The exceptions the modelled code can throw. */
  datatype Exception =
    | ReferenceError(name: string)       // reading an identifier that is not bound
    | TypeError(reason: string)
    | ModuleNotFound(path: string)       // `require` of a path the catalogue lacks
    | ParseError(file: string)           // an artifact that is not valid JSON/YAML

  /** ToBoolean: `undefined`, `null`, `false`, `0` and `""` are falsy. */
  predicate Truthy(v: JsValue) {
    match v
    case Undefined => false
    case Null => false
    case Bool(b) => b
    case Num(n) => n != 0
    case Str(s) => s != ""
    case Arr(_, _) => true
    case Obj(_) => true
  }

  /** `a || b`. */
  function Or(a: JsValue, b: JsValue): (r: JsValue)
    ensures Truthy(r) <==> Truthy(a) || Truthy(b)
    ensures Truthy(a) ==> r == a
    ensures !Truthy(a) ==> r == b
  {
    if Truthy(a) then a else b
  }

  /** `a === b`: primitives by value, arrays and objects by identity. */
  predicate StrictEquals(a: JsValue, b: JsValue) {
    match a
    case Arr(r, _) => b.Arr? && b.ref == r
    case Obj(r) => b.Obj? && b.ref == r
    case _ => a == b
  }

  /** `elems.includes(x)` (SameValueZero, which agrees with `===` without NaN). */
  predicate Includes(elems: seq<JsValue>, x: JsValue) {
    exists i :: 0 <= i < |elems| && StrictEquals(elems[i], x)
  }

  function DigitChar(d: nat): char
    requires d < 10
  {
    "0123456789"[d]
  }

  /** Decimal digits of a natural number, most significant first. */
  function NatToString(n: nat): (r: string)
    ensures |r| > 0
    decreases n
  {
    if n < 10 then [DigitChar(n)] else NatToString(n / 10) + [DigitChar(n % 10)]
  }

  /** Elements of an array as `Array.prototype.join` renders them. */
  function JoinComma(parts: seq<string>): string {
    if |parts| == 0 then ""
    else if |parts| == 1 then parts[0]
    else parts[0] + "," + JoinComma(parts[1..])
  }

  /** `${v}` in a template literal. */
  function ToDisplayString(v: JsValue): string {
    match v
    case Undefined => "undefined"
    case Null => "null"
    case Bool(b) => if b then "true" else "false"
    case Num(n) => if n < 0 then "-" + NatToString(-n) else NatToString(n)
    case Str(s) => s
    case Arr(_, elems) =>
      JoinComma(seq(|elems|, i requires 0 <= i < |elems| =>
        if elems[i].Undefined? || elems[i].Null? then "" else ToDisplayString(elems[i])))
    case Obj(_) => "[object Object]"
  }
}

=== FILE: policy_config.dfy ===
/** Turning the `custom.safeguards` entries of a service declaration into policy
    configurations (safeguards/index.js:21-40), deciding whether a policy applies
    to the current stage (safeguards/index.js:115-123), and resolving each
    configuration to a policy function (safeguards/index.js:10-11, 48-51). */
module PolicyConfig {
  import opened Wrappers
  import opened JsValues
  import Seqs

  /** One `custom.safeguards` entry as declared. An absent key is `Undefined`. */
  datatype RawPolicy = RawPolicy(
    safeguard: JsValue,
    config: JsValue,
    enforcementLevel: JsValue,
    title: JsValue,
    description: JsValue,
    stage: JsValue,
    path: JsValue)

  /** What `custom.safeguards` holds: nothing (any falsy value), a truthy value
      that is not an array, or a list of entries. */
  datatype Declared = Falsy | NotAList | Entries(items: seq<RawPolicy>)

  /** A normalised policy configuration. `policyPath` is set only for policies
      loaded from the service's own directory. */
  datatype Config = Config(
    safeguardName: JsValue,
    safeguardConfig: JsValue,
    enforcementLevel: JsValue,
    title: JsValue,
    description: JsValue,
    stage: JsValue,
    policyPath: Option<string>)

  /** An implementation from the policy catalogue, with its `docs` property. */
  datatype PolicyFn = PolicyFn(id: nat, docs: JsValue)

  /** A configuration paired with the function `require` resolved for it. */
  datatype Loaded = Loaded(config: Config, fn: PolicyFn)

  const DefaultLevel := Str("error")

  /** The identifier the title fallback reads; nothing binds it at that point. */
  const UnboundTitleName := "safeguardName"

  /** Directory of the built-in policies, relative to the engine. */
  const BuiltinDir := "./policies"

  predicate StartsWithDot(s: string) {
    |s| > 0 && s[0] == '.'
  }

  /** A relative path gets `./` in front unless it already starts with `.`
      (POSIX separator). */
  function LocalPolicyPath(relative: string): (r: string)
    ensures StartsWithDot(r)
    ensures |relative| <= |r| <= |relative| + 2 && r[|r| - |relative|..] == relative
    ensures StartsWithDot(relative) <==> r == relative
    ensures !StartsWithDot(relative) ==> r == "./" + relative
  {
    if StartsWithDot(relative) then relative else "./" + relative
  }

  /** One entry to one configuration. `relativize` stands for
      `path.relative(__dirname, path.resolve(basePath, p))` on a string `p`. */
  function Normalise(p: RawPolicy, relativize: string -> string): (r: Result<Config, Exception>)
    ensures r.Ok? <==> Truthy(p.title) && (Truthy(p.path) ==> p.path.Str?)
    ensures !Truthy(p.title) ==> r == Err(ReferenceError(UnboundTitleName))
    ensures Truthy(p.title) && r.Err? ==> r.error.TypeError?
    ensures r.Ok? ==>
      && r.value.safeguardName == p.safeguard
      && r.value.safeguardConfig == p.config
      && r.value.title == p.title
      && r.value.description == p.description
      && r.value.stage == p.stage
    ensures r.Ok? ==> Truthy(r.value.enforcementLevel)
    ensures r.Ok? && Truthy(p.enforcementLevel) ==> r.value.enforcementLevel == p.enforcementLevel
    ensures r.Ok? && !Truthy(p.enforcementLevel) ==> r.value.enforcementLevel == DefaultLevel
    ensures r.Ok? ==> (r.value.policyPath.Some? <==> Truthy(p.path))
    ensures r.Ok? && r.value.policyPath.Some? ==> StartsWithDot(r.value.policyPath.value)
    ensures r.Ok? && Truthy(p.path) ==> r.value.policyPath == Some(LocalPolicyPath(relativize(p.path.s)))
  {
    var level := Or(p.enforcementLevel, DefaultLevel);
    if !Truthy(p.title) then
      Err(ReferenceError(UnboundTitleName))
    else if !Truthy(p.path) then
      Ok(Config(p.safeguard, p.config, level, p.title, p.description, p.stage, None))
    else if !p.path.Str? then
      Err(TypeError("The \"paths[1]\" argument must be of type string"))
    else
      Ok(Config(p.safeguard, p.config, level, p.title, p.description, p.stage,
                Some(LocalPolicyPath(relativize(p.path.s)))))
  }

  /** The title the fallback evidently meant to build: `Policy: <safeguard>`. */
  function DefaultTitle(safeguard: JsValue): JsValue {
    Str("Policy: " + ToDisplayString(safeguard))
  }

  /** `Normalise` with the title fallback reading the entry's own `safeguard`. */
  function NormaliseIntended(p: RawPolicy, relativize: string -> string): (r: Result<Config, Exception>)
    ensures r.Ok? <==> (Truthy(p.path) ==> p.path.Str?)
    ensures r.Err? ==> r.error.TypeError?
    ensures r.Ok? ==> Truthy(r.value.title)
    ensures r.Ok? && !Truthy(p.title) ==> r.value.title == DefaultTitle(p.safeguard)
    ensures Normalise(p, relativize).Ok? ==> r == Normalise(p, relativize)
  {
    var titled := if Truthy(p.title) then p else p.(title := DefaultTitle(p.safeguard));
    Normalise(titled, relativize)
  }

  /** Every entry, in declaration order; the first entry that throws aborts. */
  function NormaliseAll(declared: Declared, relativize: string -> string): (r: Result<seq<Config>, Exception>)
    ensures declared.Falsy? ==> r == Ok([])
    ensures declared.NotAList? ==> r.Err? && r.error.TypeError?
    ensures r.Err? ==> r.error.TypeError? || r.error.ReferenceError?
    ensures declared.Entries? ==>
      var items := declared.items;
      && (r.Ok? <==> forall i :: 0 <= i < |items| ==> Normalise(items[i], relativize).Ok?)
      && (r.Ok? ==>
            && |r.value| == |items|
            && forall i :: 0 <= i < |items| ==> Normalise(items[i], relativize) == Ok(r.value[i]))
      && (r.Err? ==> exists i ::
            && 0 <= i < |items|
            && Normalise(items[i], relativize) == Err(r.error)
            && forall j :: 0 <= j < i ==> Normalise(items[j], relativize).Ok?)
  {
    match declared
    case Falsy => Ok([])
    case NotAList => Err(TypeError("custom.safeguards.map is not a function"))
    case Entries(items) => Seqs.MapResult(items, (p: RawPolicy) => Normalise(p, relativize))
  }

  /** When the first entry has no title, the list throws that entry's
      reference error, whatever the later entries hold. */
  lemma FirstTitleMissingThrows(declared: Declared, relativize: string -> string)
    ensures declared.Entries? && |declared.items| > 0 && !Truthy(declared.items[0].title) ==>
      NormaliseAll(declared, relativize) == Err(ReferenceError(UnboundTitleName))
  {
  }

  /** Whether a policy with this `stage` setting runs when the deployment's
      stage option is `current`, which may be any value (`undefined` when no
      stage was given). */
  function StageApplies(stage: JsValue, current: JsValue): (applies: bool)
    ensures !Truthy(stage) ==> applies
    ensures stage.Str? ==> (applies <==> stage.s == "" || current == stage)
    ensures stage.Arr? ==> (applies <==> Includes(stage.elems, current))
    ensures stage.Arr? && !current.Arr? && !current.Obj? ==> (applies <==> current in stage.elems)
    ensures !stage.Str? && !stage.Arr? && Truthy(stage) ==> applies
  {
    if !Truthy(stage) then true
    else if stage.Str? then StrictEquals(stage, current)
    else if stage.Arr? then
      assert !current.Arr? && !current.Obj? ==> forall i :: 0 <= i < |stage.elems| ==>
        (StrictEquals(stage.elems[i], current) <==> stage.elems[i] == current);
      Includes(stage.elems, current)
    else true
  }

  /** The module path `loadPolicy` requires for a configuration. */
  function ModulePath(c: Config): (r: string)
    ensures (c.policyPath.None? || StartsWithDot(c.policyPath.value)) ==> StartsWithDot(r)
    ensures var name := "/" + ToDisplayString(c.safeguardName);
      |name| < |r| && r[|r| - |name|..] == name
    ensures c.policyPath.None? ==> r == BuiltinDir + "/" + ToDisplayString(c.safeguardName)
    ensures c.policyPath.Some? && c.policyPath.value != "" ==>
      r == c.policyPath.value + "/" + ToDisplayString(c.safeguardName)
    ensures c.policyPath == Some("") ==> r == BuiltinDir + "/" + ToDisplayString(c.safeguardName)
  {
    var dir := if c.policyPath.Some? && c.policyPath.value != "" then c.policyPath.value else BuiltinDir;
    dir + "/" + ToDisplayString(c.safeguardName)
  }

  /** `loadPolicy` against a catalogue of the modules `require` can resolve. */
  function Load(c: Config, catalogue: map<string, PolicyFn>): (r: Result<Loaded, Exception>)
    ensures r.Ok? <==> ModulePath(c) in catalogue
    ensures r.Ok? ==> r.value == Loaded(c, catalogue[ModulePath(c)])
    ensures r.Err? ==> r.error == ModuleNotFound(ModulePath(c))
  {
    var path := ModulePath(c);
    if path in catalogue then Ok(Loaded(c, catalogue[path])) else Err(ModuleNotFound(path))
  }

  /** Every configuration loaded before any policy runs; the first unresolved
      module aborts. */
  function LoadAll(configs: seq<Config>, catalogue: map<string, PolicyFn>): (r: Result<seq<Loaded>, Exception>)
    ensures r.Ok? <==> forall i :: 0 <= i < |configs| ==> ModulePath(configs[i]) in catalogue
    ensures r.Ok? ==>
      && |r.value| == |configs|
      && forall i :: 0 <= i < |configs| ==> r.value[i] == Loaded(configs[i], catalogue[ModulePath(configs[i])])
    ensures r.Err? ==> r.error.ModuleNotFound?
    ensures r.Err? ==> exists i ::
      && 0 <= i < |configs|
      && ModulePath(configs[i]) !in catalogue
      && r.error == ModuleNotFound(ModulePath(configs[i]))
      && forall j :: 0 <= j < i ==> ModulePath(configs[j]) in catalogue
  {
    Seqs.MapResult(configs, (c: Config) => Load(c, catalogue))
  }

  /** `NormaliseAll` with the corrected title fallback: only a non-string
      `path` can still throw. */
  function NormaliseAllIntended(declared: Declared, relativize: string -> string): (r: Result<seq<Config>, Exception>)
    ensures declared.Falsy? ==> r == Ok([])
    ensures declared.NotAList? ==> r.Err? && r.error.TypeError?
    ensures r.Err? ==> r.error.TypeError?
    ensures declared.Entries? ==>
      var items := declared.items;
      && (r.Ok? <==> forall i :: 0 <= i < |items| ==> (Truthy(items[i].path) ==> items[i].path.Str?))
      && (r.Ok? ==> |r.value| == |items| && forall i :: 0 <= i < |items| ==> Truthy(r.value[i].title))
      && (r.Ok? ==> forall i :: 0 <= i < |items| ==> NormaliseIntended(items[i], relativize) == Ok(r.value[i]))
  {
    match declared
    case Falsy => Ok([])
    case NotAList => Err(TypeError("custom.safeguards.map is not a function"))
    case Entries(items) =>
      Seqs.MapResult(items, (p: RawPolicy) => NormaliseIntended(p, relativize))
  }

  /** Wherever the as-written normalisation succeeds, the corrected one gives
      the same configurations. */
  lemma NormaliseIntendedAgrees(declared: Declared, relativize: string -> string)
    ensures NormaliseAll(declared, relativize).Ok? ==>
      NormaliseAllIntended(declared, relativize) == NormaliseAll(declared, relativize)
  {
    if declared.Entries? && NormaliseAll(declared, relativize).Ok? {
      var items := declared.items;
      var a, b := NormaliseAll(declared, relativize), NormaliseAllIntended(declared, relativize);
      assert b.Ok? by {
        forall i | 0 <= i < |items| ensures Truthy(items[i].path) ==> items[i].path.Str? {
          assert Normalise(items[i], relativize).Ok?;
        }
      }
      assert |a.value| == |b.value| == |items|;
      forall i | 0 <= i < |items| ensures a.value[i] == b.value[i] {
        assert Normalise(items[i], relativize) == Ok(a.value[i]);
        assert NormaliseIntended(items[i], relativize) == Ok(b.value[i]);
      }
      assert a.value == b.value;
    }
  }

  /** A local `path` that resolves to the engine's own directory becomes
      `./`, and the module path then carries a doubled separator. */
  lemma EngineDirectoryPath(p: RawPolicy, relativize: string -> string)
    requires Truthy(p.title) && p.path.Str? && p.path.s != "" && relativize(p.path.s) == ""
    ensures Normalise(p, relativize).Ok?
    ensures Normalise(p, relativize).value.policyPath == Some("./")
    ensures ModulePath(Normalise(p, relativize).value) == ".//" + ToDisplayString(p.safeguard)
  {
    assert LocalPolicyPath("") == "./" by { assert "./" + "" == "./"; }
  }

  /** A falsy title does not get a default: normalising such an entry throws,
      whatever the rest of the entry says. */
  lemma MissingTitleRaises(relativize: string -> string)
    ensures Normalise(RawPolicy(Str("require-dlq"), Null, Str("error"), Undefined, Undefined, Undefined, Undefined),
                      relativize) == Err(ReferenceError("safeguardName"))
    ensures NormaliseIntended(RawPolicy(Str("require-dlq"), Null, Str("error"), Undefined, Undefined, Undefined, Undefined),
                              relativize).value.title == Str("Policy: require-dlq")
  {
  }
}

=== FILE: scenarios.dfy ===
/** Whole runs of `runPolicies` on the configurations of the source's own test
    suite (safeguards/index.test.js:101-243): one artifact, stage `dev`, and
    policies whose bodies are fixed call sequences. */
module Scenarios {
  import opened Wrappers
  import opened JsValues
  import opened PolicyConfig
  import opened Capability
  import opened Aggregation
  import opened Artifacts
  import opened Engine

  const SecretsFn := PolicyFn(1, Str("https://git.io/secretDocs"))
  const SecretsTitle := Str("no secrets")
  const SecretsDescription := Str("wtf yo? no secrets!")

  /** The `no-secret-env-vars` stub: it calls `fail('Error Message')` twice. */
  const FailTwice: Invoker := (fn: PolicyFn, s: Service, c: JsValue) => [Fail("Error Message"), Fail("Error Message")]

  function SecretsEnvironment(level: string): Environment {
    Environment(
      Entries([RawPolicy(Str("no-secret-env-vars"), Null, Str(level), SecretsTitle, SecretsDescription, Undefined, Undefined)]),
      Str("dev"),
      (p: string) => p,
      map[BuiltinDir + "/" + "no-secret-env-vars" := SecretsFn],
      [".serverless/cloudformation-template-update-stack.json"],
      (f: Format, n: string) => Some(Obj(0)),
      FailTwice)
  }

  /** The stub's record: failed, not approved, both messages joined. */
  lemma SecretsCalls()
    ensures Evaluate([Fail("Error Message"), Fail("Error Message")])
      == Outcome(false, true, Some("Error Message Error Message"))
  {
    var calls := [Fail("Error Message"), Fail("Error Message")];
    assert calls[..1] == [Fail("Error Message")];
    assert calls[..1][..0] == [];
    assert Evaluate(calls[..1]) == Outcome(false, true, Some("Error Message"));
    assert "Error Message" + " " + "Error Message" == "Error Message Error Message";
  }

  function SecretsConfig(level: string): Config {
    Config(Str("no-secret-env-vars"), Null, Str(level), SecretsTitle, SecretsDescription, Undefined, None)
  }

  lemma SecretsNormalised(level: string)
    requires level != ""
    ensures NormaliseAll(SecretsEnvironment(level).declared, SecretsEnvironment(level).relativize)
      == Ok([SecretsConfig(level)])
  {
    var env := SecretsEnvironment(level);
    assert Normalise(env.declared.items[0], env.relativize) == Ok(SecretsConfig(level));
    var normalised := NormaliseAll(env.declared, env.relativize);
    assert normalised.Ok? && |normalised.value| == 1;
    assert normalised.value[0] == SecretsConfig(level);
    assert normalised.value == [SecretsConfig(level)];
  }

  lemma SecretsLoaded(level: string)
    ensures LoadAll([SecretsConfig(level)], SecretsEnvironment(level).catalogue)
      == Ok([Loaded(SecretsConfig(level), SecretsFn)])
  {
    var config := SecretsConfig(level);
    assert ToDisplayString(Str("no-secret-env-vars")) == "no-secret-env-vars";
    assert ModulePath(config) == BuiltinDir + "/" + "no-secret-env-vars";
    var catalogue := SecretsEnvironment(level).catalogue;
    assert ModulePath(config) in catalogue && catalogue[ModulePath(config)] == SecretsFn;
    var r := LoadAll([config], catalogue);
    assert r.Ok? && |r.value| == 1 && r.value[0] == Loaded(config, SecretsFn);
    assert r.value == [Loaded(config, SecretsFn)];
  }

  lemma SecretsCompiled(level: string)
    ensures Compile(SecretsEnvironment(level).artifactNames, SecretsEnvironment(level).parse).Ok?
  {
  }

  /** The stub writes one failure line, worded by level. */
  lemma SecretsLines(level: JsValue)
    ensures Lines([Fail("Error Message"), Fail("Error Message")], level, SecretsTitle)
      == [if level == Str("error") then FailedLine(SecretsTitle) else WarnedLine(SecretsTitle)]
  {
    var calls := [Fail("Error Message"), Fail("Error Message")];
    assert calls[..1] == [Fail("Error Message")];
    assert calls[..1][..0] == [];
    assert Lines(calls[..1], level, SecretsTitle)
      == [if level == Str("error") then FailedLine(SecretsTitle) else WarnedLine(SecretsTitle)];
    assert Evaluate(calls[..1]).failed;
  }

  const SecretsMessage := "Error Message Error Message"

  function SecretsLoadedPolicy(level: string): Loaded {
    Loaded(SecretsConfig(level), SecretsFn)
  }

  function SecretsResult(level: string): PolicyResult {
    PolicyResult(false, true, false, Some(SecretsMessage), SecretsLoadedPolicy(level))
  }

  function SecretsFailureLine(level: string): Progress {
    if level == "error" then FailedLine(SecretsTitle) else WarnedLine(SecretsTitle)
  }

  /** The one policy's run: failed with both messages, one failure line. */
  lemma SecretsRunOne(level: string, service: Service)
    requires service.stage == Str("dev")
    ensures RunOne(SecretsLoadedPolicy(level), service, FailTwice)
      == PolicyRun(SecretsResult(level), [RunningLine(SecretsTitle), SecretsFailureLine(level)], false)
  {
    SecretsCalls();
    SecretsLines(Str(level));
  }

  /** One failed result counts as a warning or an error by its level, and
      blocks exactly at level `'error'`. */
  lemma SecretsAggregates(level: string)
    requires level == "warning" || level == "error"
    ensures Summarize([SecretsResult(level)])
      == (if level == "error" then Summary(0, 0, 1, 0) else Summary(0, 1, 0, 0))
    ensures Details([SecretsResult(level)])
      == [Detail(1, if level == "error" then FailedText(SecretsMessage) else WarnedText(SecretsMessage),
                 SecretsFn.docs, SecretsDescription)]
    ensures BlocksDeployment([SecretsResult(level)]) <==> level == "error"
  {
    var r := SecretsResult(level);
    assert "warning" != "error";
    Seqs.FilterSingleton(r, IsMarked);
    Seqs.FilterSingleton(r, IsPassed);
    Seqs.FilterSingleton(r, IsSkipped);
    Seqs.FilterSingleton(r, IsErrorLevel);
    Seqs.FilterSingleton(r, IsNotErrorLevel);
    assert Marked([r]) == [r];
  }

  function SecretsPolicyRun(level: string): PolicyRun {
    PolicyRun(SecretsResult(level), [RunningLine(SecretsTitle), SecretsFailureLine(level)], false)
  }

  /** The run writes its two progress lines, then the details block; the
      log holds only the headers and the summary. */
  lemma SecretsChannels(level: string)
    ensures var v := Conclude([SecretsPolicyRun(level)]);
      && v.report.stdout == [ProgressOut(RunningLine(SecretsTitle)), ProgressOut(SecretsFailureLine(level)),
                             DetailsOut(v.report.details)]
      && v.report.logs == [ProcessingStarted, ResultsHeader, SummaryLine(v.report.summary)]
  {
    var run := SecretsPolicyRun(level);
    ConcludeSingle(run);
    assert ProgressOutputs(run) == [ProgressOut(RunningLine(SecretsTitle)), ProgressOut(SecretsFailureLine(level))];
  }

  /** What the run reports once the one policy has run. */
  lemma SecretsConclusion(level: string)
    requires level == "warning" || level == "error"
    ensures var v := Conclude([SecretsPolicyRun(level)]);
      && v.Finished()
      && (v.Blocked? <==> level == "error")
      && v.report.summary == Summarize([SecretsResult(level)])
      && v.report.details == Details([SecretsResult(level)])
  {
    var v := Conclude([SecretsPolicyRun(level)]);
    assert v.report.results == [SecretsResult(level)];
    SecretsAggregates(level);
  }

  /** The configuration normalises, its policy loads, the artifact parses,
      and the one policy runs. */
  lemma SecretsReachConclusion(level: string)
    requires level != ""
    ensures RunPolicies(SecretsEnvironment(level)) == Conclude([SecretsPolicyRun(level)])
  {
    var env := SecretsEnvironment(level);
    SecretsNormalised(level);
    SecretsLoaded(level);
    SecretsCompiled(level);
    var service := Service(Compile(env.artifactNames, env.parse).value, Str("dev"));
    SecretsRunOne(level, service);
    var run := SecretsPolicyRun(level);
    assert RunAll([SecretsLoadedPolicy(level)], service, FailTwice) == [run];
    assert RunPolicies(env) == RunConfigured([SecretsConfig(level)], env);
  }

  /** With level `'warning'` the run reports one warning and returns; with
      level `'error'` it reports one error and throws the blocking error. Either
      way the details block has one entry carrying both messages. */
  lemma SecretsRun(level: string)
    requires level == "warning" || level == "error"
    ensures var v := RunPolicies(SecretsEnvironment(level));
      && v.Finished()
      && (v.Blocked? <==> level == "error")
      && (v.Blocked? ==> v.reason == BlockedMessage)
      && v.report.summary == (if level == "error" then Summary(0, 0, 1, 0) else Summary(0, 1, 0, 0))
      && v.report.details == [Detail(1, if level == "error" then FailedText(SecretsMessage) else WarnedText(SecretsMessage),
                                     SecretsFn.docs, SecretsDescription)]
      && v.report.stdout == [
           ProgressOut(RunningLine(SecretsTitle)),
           ProgressOut(if level == "error" then FailedLine(SecretsTitle) else WarnedLine(SecretsTitle)),
           DetailsOut(v.report.details)]
      && v.report.logs == [ProcessingStarted, ResultsHeader, SummaryLine(v.report.summary)]
  {
    SecretsReachConclusion(level);
    SecretsConclusion(level);
    SecretsChannels(level);
    SecretsAggregates(level);
  }

  // Two policies that each call `approve` once (safeguards/index.test.js:110-153).

  const DlqFn := PolicyFn(2, Str("https://git.io/dlqDocs"))
  const IamFn := PolicyFn(3, Str("https://git.io/iamDocs"))
  const DlqTitle := Str("Require Dead Letter Queues")
  const IamTitle := Str("no wild iam")

  /** Both stubs call `approve` once. */
  const ApproveOnce: Invoker := (fn: PolicyFn, s: Service, c: JsValue) => [Approve]

  /** The second entry spells `describe` for `description`, so its description
      is `undefined`. */
  function ApprovalsEnvironment(): Environment {
    Environment(
      Entries([
        RawPolicy(Str("require-dlq"), Null, Str("error"), DlqTitle, Str("You gotta use a DLQ!"), Undefined, Undefined),
        RawPolicy(Str("no-wild-iam-role-statements"), Null, Str("error"), IamTitle, Undefined, Undefined, Undefined)]),
      Str("dev"),
      (p: string) => p,
      map[BuiltinDir + "/" + "require-dlq" := DlqFn, BuiltinDir + "/" + "no-wild-iam-role-statements" := IamFn],
      [".serverless/cloudformation-template-update-stack.json"],
      (f: Format, n: string) => Some(Obj(0)),
      ApproveOnce)
  }

  function DlqConfig(): Config {
    Config(Str("require-dlq"), Null, Str("error"), DlqTitle, Str("You gotta use a DLQ!"), Undefined, None)
  }

  function IamConfig(): Config {
    Config(Str("no-wild-iam-role-statements"), Null, Str("error"), IamTitle, Undefined, Undefined, None)
  }

  lemma ApprovalsNormalised()
    ensures NormaliseAll(ApprovalsEnvironment().declared, ApprovalsEnvironment().relativize)
      == Ok([DlqConfig(), IamConfig()])
  {
    var env := ApprovalsEnvironment();
    assert Normalise(env.declared.items[0], env.relativize) == Ok(DlqConfig());
    assert Normalise(env.declared.items[1], env.relativize) == Ok(IamConfig());
    var normalised := NormaliseAll(env.declared, env.relativize);
    assert normalised.Ok? && |normalised.value| == 2;
    assert normalised.value == [DlqConfig(), IamConfig()];
  }

  lemma DlqLoads()
    ensures Load(DlqConfig(), ApprovalsEnvironment().catalogue) == Ok(Loaded(DlqConfig(), DlqFn))
  {
    assert ToDisplayString(Str("require-dlq")) == "require-dlq";
    assert ModulePath(DlqConfig()) == BuiltinDir + "/" + "require-dlq";
  }

  lemma IamLoads()
    ensures Load(IamConfig(), ApprovalsEnvironment().catalogue) == Ok(Loaded(IamConfig(), IamFn))
  {
    assert ToDisplayString(Str("no-wild-iam-role-statements")) == "no-wild-iam-role-statements";
    assert ModulePath(IamConfig()) == BuiltinDir + "/" + "no-wild-iam-role-statements";
  }

  lemma ApprovalsLoaded()
    ensures LoadAll([DlqConfig(), IamConfig()], ApprovalsEnvironment().catalogue)
      == Ok([Loaded(DlqConfig(), DlqFn), Loaded(IamConfig(), IamFn)])
  {
    var catalogue := ApprovalsEnvironment().catalogue;
    var configs := [DlqConfig(), IamConfig()];
    DlqLoads();
    IamLoads();
    assert forall i :: 0 <= i < |configs| ==> ModulePath(configs[i]) in catalogue;
    var r := LoadAll(configs, catalogue);
    assert r.Ok? && |r.value| == 2;
    assert r.value[0] == Loaded(DlqConfig(), DlqFn);
    assert r.value[1] == Loaded(IamConfig(), IamFn);
    assert r.value == [Loaded(DlqConfig(), DlqFn), Loaded(IamConfig(), IamFn)];
  }

  function ApprovedRun(p: Loaded): PolicyRun {
    PolicyRun(PolicyResult(true, false, false, None, p), [RunningLine(p.config.title), PassedLine(p.config.title)], false)
  }

  /** A stage-less policy that approves once: approved, one passed line. */
  lemma ApprovingRunOne(p: Loaded, service: Service)
    requires p.config.stage == Undefined
    ensures RunOne(p, service, ApproveOnce) == ApprovedRun(p)
  {
    var calls := [Approve];
    assert calls[..0] == [];
    assert Lines(calls, p.config.enforcementLevel, p.config.title) == [PassedLine(p.config.title)];
    assert Evaluate(calls) == Outcome(true, false, None);
  }

  function ApprovalsRuns(): seq<PolicyRun> {
    [ApprovedRun(Loaded(DlqConfig(), DlqFn)), ApprovedRun(Loaded(IamConfig(), IamFn))]
  }

  /** Two passed results: nothing is marked, so two passed, no details, no block. */
  lemma ApprovalsAggregates(r1: PolicyResult, r2: PolicyResult)
    requires IsPassed(r1) && IsPassed(r2) && !r1.skipped && !r2.skipped
    ensures Marked([r1, r2]) == []
    ensures Summarize([r1, r2]) == Summary(2, 0, 0, 0)
    ensures Details([r1, r2]) == []
    ensures !BlocksDeployment([r1, r2])
  {
    assert [r1, r2] == [r1] + [r2];
    Seqs.FilterAppend([r1], [r2], IsMarked);
    Seqs.FilterAppend([r1], [r2], IsPassed);
    Seqs.FilterAppend([r1], [r2], IsSkipped);
    Seqs.FilterSingleton(r1, IsMarked);
    Seqs.FilterSingleton(r2, IsMarked);
    Seqs.FilterSingleton(r1, IsPassed);
    Seqs.FilterSingleton(r2, IsPassed);
    Seqs.FilterSingleton(r1, IsSkipped);
    Seqs.FilterSingleton(r2, IsSkipped);
  }

  /** Both progress pairs, in declaration order, and nothing after them;
      neither run is inconclusive, so the log holds only the headers and the
      summary. */
  lemma ApprovalsChannels(r1: PolicyRun, r2: PolicyRun)
    requires r1 == ApprovedRun(Loaded(DlqConfig(), DlqFn)) && r2 == ApprovedRun(Loaded(IamConfig(), IamFn))
    ensures var v := Conclude([r1, r2]);
      && v.report.stdout == [
           ProgressOut(RunningLine(DlqTitle)), ProgressOut(PassedLine(DlqTitle)),
           ProgressOut(RunningLine(IamTitle)), ProgressOut(PassedLine(IamTitle))]
      && v.report.logs == [ProcessingStarted, ResultsHeader, SummaryLine(v.report.summary)]
  {
    ConcludePair(r1, r2);
    ApprovalsAggregates(r1.result, r2.result);
    assert ProgressOutputs(r1) == [ProgressOut(RunningLine(DlqTitle)), ProgressOut(PassedLine(DlqTitle))];
    assert ProgressOutputs(r2) == [ProgressOut(RunningLine(IamTitle)), ProgressOut(PassedLine(IamTitle))];
  }

  /** Both approved: the run is allowed with two passed and no details. */
  lemma ApprovalsConclusion()
    ensures var v := Conclude(ApprovalsRuns());
      && v.Allowed?
      && v.report.summary == Summary(2, 0, 0, 0)
      && v.report.details == []
  {
    var runs := ApprovalsRuns();
    var v := Conclude(runs);
    assert v.report.results == [runs[0].result, runs[1].result];
    ApprovalsAggregates(runs[0].result, runs[1].result);
  }

  lemma ApprovalsConfigured()
    ensures RunPolicies(ApprovalsEnvironment()) == RunConfigured([DlqConfig(), IamConfig()], ApprovalsEnvironment())
  {
    ApprovalsNormalised();
  }

  lemma ApprovalsRunAll(service: Service)
    ensures RunAll([Loaded(DlqConfig(), DlqFn), Loaded(IamConfig(), IamFn)], service, ApproveOnce)
      == ApprovalsRuns()
  {
    var l1, l2 := Loaded(DlqConfig(), DlqFn), Loaded(IamConfig(), IamFn);
    var runs := RunAll([l1, l2], service, ApproveOnce);
    assert runs[0] == ApprovedRun(l1) by { ApprovingRunOne(l1, service); }
    assert runs[1] == ApprovedRun(l2) by { ApprovingRunOne(l2, service); }
    assert |runs| == 2;
  }

  /** Both policies load, the artifact parses, and both run. */
  lemma ApprovalsReachConclusion()
    ensures RunPolicies(ApprovalsEnvironment()) == Conclude(ApprovalsRuns())
  {
    var env := ApprovalsEnvironment();
    ApprovalsConfigured();
    ApprovalsLoaded();
    var compiled := Compile(env.artifactNames, env.parse);
    assert compiled.Ok?;
    ApprovalsRunAll(Service(compiled.value, env.stage));
  }

  /** The whole run of the two approving policies returns normally. */
  lemma ApprovalsRun()
    ensures var v := RunPolicies(ApprovalsEnvironment());
      && v.Allowed?
      && v.report.summary == Summary(2, 0, 0, 0)
      && v.report.details == []
      && v.report.stdout == [
           ProgressOut(RunningLine(DlqTitle)), ProgressOut(PassedLine(DlqTitle)),
           ProgressOut(RunningLine(IamTitle)), ProgressOut(PassedLine(IamTitle))]
      && v.report.logs == [ProcessingStarted, ResultsHeader, SummaryLine(Summary(2, 0, 0, 0))]
  {
    ApprovalsReachConclusion();
    ApprovalsConclusion();
    var runs := ApprovalsRuns();
    ApprovalsChannels(runs[0], runs[1]);
  }
}

=== FILE: seqs.dfy ===
/** Order-preserving sequence combinators: JavaScript's `Array.prototype.filter`,
    a `map` that stops at the first thrown exception, and flattening. */
module Seqs {
  import opened Wrappers

  /** `s.filter(p)`: the elements satisfying `p`, in their original order. */
  function Filter<T>(s: seq<T>, p: T -> bool): (r: seq<T>)
    ensures |r| <= |s|
    ensures forall i :: 0 <= i < |r| ==> r[i] in s && p(r[i])
    ensures forall i :: 0 <= i < |s| && p(s[i]) ==> s[i] in r
  {
    if |s| == 0 then [] else (if p(s[0]) then [s[0]] else []) + Filter(s[1..], p)
  }

  /** Filtering distributes over concatenation, so it keeps the relative order of
      the elements it keeps. */
  lemma {:induction false} FilterAppend<T>(a: seq<T>, b: seq<T>, p: T -> bool)
    ensures Filter(a + b, p) == Filter(a, p) + Filter(b, p)
  {
    if |a| == 0 {
      assert a + b == b;
    } else {
      assert (a + b)[0] == a[0];
      assert (a + b)[1..] == a[1..] + b;
      FilterAppend(a[1..], b, p);
    }
  }

  /** Filtering a one-element sequence keeps it or drops it. */
  lemma FilterSingleton<T>(x: T, p: T -> bool)
    ensures Filter([x], p) == if p(x) then [x] else []
  {
    assert [x][1..] == [];
  }

  /** `xs.map(f)` where `f` may throw: the first exception, in order, aborts the
      whole map; otherwise every element is mapped, in order. */
  function MapResult<A, B(==), E(==)>(xs: seq<A>, f: A -> Result<B, E>): (r: Result<seq<B>, E>)
    ensures r.Ok? <==> forall i :: 0 <= i < |xs| ==> f(xs[i]).Ok?
    ensures r.Ok? ==> |r.value| == |xs| && forall i :: 0 <= i < |xs| ==> f(xs[i]) == Ok(r.value[i])
    ensures r.Err? ==>
      exists i :: 0 <= i < |xs| && f(xs[i]) == Err(r.error) && forall j :: 0 <= j < i ==> f(xs[j]).Ok?
  {
    if |xs| == 0 then Ok([])
    else
      match f(xs[0])
      case Err(e) => Err(e)
      case Ok(y) =>
        match MapResult(xs[1..], f)
        case Err(e) => Err(e)
        case Ok(ys) => Ok([y] + ys)
  }

  /** A sequence is a prefix of itself followed by anything. */
  lemma PrefixOfAppend<T>(a: seq<T>, b: seq<T>)
    ensures a <= a + b
  {
  }

  lemma Regroup<T>(a: seq<T>, b: seq<T>, c: seq<T>, d: seq<T>)
    ensures a + (b + c) + d == a + b + (c + d)
  {
  }

  lemma AppendAssociates<T>(a: seq<T>, b: seq<T>, c: seq<T>)
    ensures a + (b + c) == a + b + c
  {
  }
}

=== FILE: wrappers.dfy ===
/** Failure-compatible wrappers used throughout the model: an optional value
    (a JavaScript property that may be absent) and a result that either holds
    a value or the exception the source would throw. */
module Wrappers {

  datatype Option<+T> = None | Some(value: T) {

    /** The held value, or `default` when there is none. */
    function GetOr(default: T): T {
      match this
      case Some(v) => v
      case None => default
    }
  }

  datatype Result<+T, +E> = Ok(value: T) | Err(error: E) {

    predicate IsFailure() {
      Err?
    }

    function PropagateFailure<U>(): Result<U, E>
      requires Err?
    {
      Err(error)
    }

    function Extract(): T
      requires Ok?
    {
      value
    }
  }
}
